=== FILE: README.md ===
# nativescript-vue-shadow, modelled in Dafny

This project models `v-shadow`, a Vue directive for NativeScript that draws
a Material-style elevation shadow under a view. It covers three parts.

- **The per-element directive `NativeShadowDirective`, in both shipped variants.**
  - The bundled build (`Dist` in the model) has platform-gated intake, a
    string/number shorthand and `onUpdate`.
  - The older TypeScript source (`Legacy`) has verbatim intake,
    `onChanges`, and hooks that build a throw-away directive on every call.
  - Both share one lifecycle: constructor intake, `init`, `bindEvents`,
    `load`, `unload`, `unbindEvents`, `destroy`, `applyShadow`, the
    `loadFrom*Data` `||` merges, and the redraw-hook patch that re-applies
    the shadow whenever NativeScript redraws the background.
- **The static `Shadow` class.** It covers `apply` (platform dispatch) and
  `getDefaults`. On Android, `applyOnAndroid` unwraps the background,
  computes the corner radii and fill colour, builds the new background
  without nesting shadows, sets elevation and translationZ, and installs
  the press animator from `overrideDefaultAnimator`. On iOS,
  `applyOnIOS` sets the layer shadow from the elevation formulas.
- **The plugin's `install` guard** and the directive hook objects of both
  variants.

Files:

| file | contents |
|---|---|
| `wrappers.dfy` | `Option`, `Result` |
| `js_values.dfy` | JavaScript values, truthiness, `typeof`, `||`, property reads |
| `js_numbers.dfy` | decimal `parseInt`, `parseFloat`, `Number()`, `toFixed(2)` |
| `style_record.dfy` | the 15 style fields as one record, key lists, copy and `||`-merge |
| `native_views.dfy` | symbolic Android and iOS views, drawables, animators, environment |
| `shadow.dfy` | the `Shadow` class |
| `lifecycle.dfy` | the directive state machine of both variants |
| `lifecycle_properties.dfy` | properties that relate several lifecycle calls |
| `plugin.dfy` | `install` and the hook objects |

Platform state (`isAndroid`/`isIOS`, the SDK level, the short animation
time, the screen scale) is a parameter `Env`. The element is a value that
records:

- its native view;
- what its `_redrawNativeBackground` slot holds;
- whether it is loaded;
- its list of weak event subscriptions.

Each operation is a pure function from such a scene to the next one.

Some behaviour of the code is easy to miss; each item is stated by a lemma:

- Both `initializeAndroidData` implementations parse only `cornerRadius`
  and `translationZ`; a string `pressedTranslationZ` stays a string
  (`Lifecycle.InitializeAndroidData`).
- `init` normalises the fields and then merges the raw bound object back
  in, so truthy strings come back unparsed (`InitReimportsRawStrings`).
- The bundled `init`, given no `shadow` but a truthy elevation, merges an
  object literal of the directive's own fields, which changes nothing
  (`Lifecycle.OwnLiteralMergeIsIdentity`).
- The bundled `loadFromAndroidData` never merges `pressedElevation`
  (`OnUpdateKeepsPressedElevation`).
- The older `onChanges` merges the directive's current `shadow` object,
  not the incoming one (`OnChangesMergesOldShadow`).
- The older `onChanges` watches `useShadowMap` rather than
  `useShadowPath` (`UseShadowMapChangeReapplies`,
  `UseShadowPathChangeIgnored`).

## Model

| member | source | states |
|---|---|---|
| JsValues.Or | dist/nativescript-vue-shadow.esm.js:333-350 | `a || b` is one of its two operands, and it is truthy exactly when either operand is |
| JsNumbers.ParseIntRoundTrip | dist/nativescript-vue-shadow.esm.js:243-252 | `parseInt` with radix 10 reads back every integer from its decimal spelling |
| JsNumbers.ParseIntIgnoresTrailingText | dist/nativescript-vue-shadow.esm.js:243-260 | `parseInt` stops at the first non-digit, so `"8px"` reads as 8 |
| JsNumbers.ParseFloatOfDecimalLiteral | dist/nativescript-vue-shadow.esm.js:261-271 | `parseFloat` reads a `whole.fraction` literal as its exact decimal value |
| StyleRecord.Merge | dist/nativescript-vue-shadow.esm.js:333-350 | each listed field becomes the source's value when truthy and keeps the old value otherwise; unlisted fields are untouched |
| StyleRecord.MergeIdempotent | dist/nativescript-vue-shadow.esm.js:333-350 | merging the same object twice is merging it once |
| StyleRecord.MergeOwnFieldsIsIdentity | dist/nativescript-vue-shadow.esm.js:372-395 | merging an object literal built from the directive's own fields changes nothing, so the second `init` merge is a no-op |
| Shadow.Apply | src/common/shadow.ts:48-58 | the Android path runs exactly when the view has an Android surface and SDK >= 21; otherwise the iOS path runs if there is an iOS surface; otherwise the view is unchanged; both paths see defaults filled |
| Shadow.GetDefaults | src/common/shadow.ts:60-74 | shape, pressedElevation, pressedTranslationZ and shadowColor are always truthy afterwards and keep a truthy input; useShadowPath and rasterize keep any defined input and default to true and false; every other field is untouched |
| Shadow.GetDefaultsIdempotent | src/common/shadow.ts:60-74 | resolving defaults twice equals resolving them once |
| Shadow.GetDefaultsKeepsDefinedButNotFalsy | src/common/shadow.ts:60-74 | an explicit `useShadowPath: false` survives, an explicit `pressedElevation: 0` becomes 2 |
| Shadow.ResolveBase | src/common/shadow.ts:86-100 | the background is kept iff it is a ripple around an inset drawable; a ripple around a shadow, or a bare shadow, is replaced by the background under that shadow; any other background, or none, becomes the base as it is |
| Shadow.CornerRadii | src/common/shadow.ts:102-110 | eight radii, pairwise from the view's own corner radii when `cornerRadius` is undefined, otherwise all equal to `cornerRadius` (so 0 is honoured) |
| Shadow.FillColour | src/common/shadow.ts:112-116 | the base's own non-zero colour wins, then a truthy `bgcolor`, then white |
| Shadow.NewBackground | src/common/shadow.ts:118-139 | always a shadow drawable; plain iff the shape is not a rectangle, a `bgcolor` is set or there is no base; a plain one has the shape, the eight corner radii and the fill colour; a layered one has a rounded rectangle of those radii and that colour over the base as its second layer |
| Shadow.ApplyOnAndroid | src/common/shadow.ts:80-151 | elevation and translationZ are always written; the background is kept when it is a ripple around an inset, and otherwise becomes the new background built over the resolved base; the press animator replaces the old one exactly when one existed or a press animation is forced |
| Shadow.PressAnimatorStates | src/common/shadow.ts:153-195 | pressed and enabled lifts to the pressed values; enabled only rests at translationZ (or 0) and elevation; disabled drops both to 0; translationZ moves over half the short animation time |
| Shadow.ApplyOnAndroidNeverNests | src/common/shadow.ts:86-139 | applying to a background holding at most one shadow leaves at most one shadow layer, over a shadow-free original |
| Shadow.RepeatedApplyNeverNests | src/common/shadow.ts:86-139 | the no-nesting invariant holds after any number of re-applications |
| Shadow.ResolveBaseOfNewBackground | src/common/shadow.ts:94-139 | unwrapping a newly built shadow gives back the base it was built over, or none for a plain shadow |
| Shadow.ApplyOnAndroidIdempotent | src/common/shadow.ts:80-151 | applying twice with the same data equals applying once, except when a plain shadow replaced a coloured background |
| Shadow.ReapplyForgetsBackgroundColour | src/common/shadow.ts:112-139 | a red view with an oval shadow is filled red on the first apply and white on the second |
| Shadow.ApplyOnIOS | src/common/shadow.ts:197-221 | clipping is off; offset, opacity and radius come from explicit truthy values or from the elevation formulas; rasterisation is as given; a rounded shadow path exists iff `useShadowPath` is truthy |
| Shadow.IosShadowAtElevationTen | src/common/shadow.ts:197-213 | at elevation 10 with no explicit values the offset is 5.26, the opacity 0.31 and the radius 6.1 |
| Shadow.IosExplicitRadiusIgnoresElevation | src/common/shadow.ts:202-213 | an explicit truthy `shadowRadius` sets the layer's radius, through `parseFloat`, and the shadow path's radius, whatever the elevation |
| Shadow.IosIgnoresMaskToBounds | src/common/shadow.ts:197-221 | the iOS layer does not depend on `maskToBounds` |
| Shadow.ApplyIdempotent | src/common/shadow.ts:48-58 | applying through the dispatcher twice equals applying once, under the colour exception of the Android path |
| Lifecycle.DistIntake | dist/nativescript-vue-shadow.esm.js:199-236 | a truthy string or number sets shadow and elevation; an object counts only with a truthy `elevation`, and brings its Android fields only on Android when one is present (its iOS fields likewise); anything else sets nothing |
| Lifecycle.PlatformFields | dist/nativescript-vue-shadow.esm.js:206-235 | the Android fields are copied on Android when one is present, else the iOS fields on iOS, else nothing |
| Lifecycle.LegacyIntake | src/vue-shadow.ts:66-86 | a truthy bound value supplies `shadow` and every field verbatim, on every platform; a falsy one supplies nothing |
| Lifecycle.Construct | dist/nativescript-vue-shadow.esm.js:190-242 | all flags down, the variant's intake, and on Android the current redraw hook kept for restoring |
| Lifecycle.ShorthandElevation | dist/nativescript-vue-shadow.esm.js:243-252 | a truthy shorthand whose `parseInt` is a non-zero number gives that integer, anything else gives 2; either way the elevation is truthy and integral |
| Lifecycle.InitializeCommonData | dist/nativescript-vue-shadow.esm.js:243-252 | a string or number shadow fills a falsy elevation; a string or number elevation becomes its integer part, or 2 when falsy; any other elevation is kept |
| Lifecycle.InitializeAndroidData | dist/nativescript-vue-shadow.esm.js:253-260 | string `cornerRadius` and `translationZ` go through `parseInt`; no other field changes, `pressedTranslationZ` included |
| Lifecycle.InitializeIosData | dist/nativescript-vue-shadow.esm.js:261-271 | string offset, opacity and radius go through `parseFloat`; no other field changes |
| Lifecycle.Coerce | dist/nativescript-vue-shadow.esm.js:353-360 | on Android string `cornerRadius` and `translationZ` go through `parseInt`, on iOS string offset, opacity and radius through `parseFloat`, elsewhere nothing changes; the elevation is never touched |
| Lifecycle.OwnLiteralMergeIsIdentity | dist/nativescript-vue-shadow.esm.js:369-394 | merging the object literal of the directive's own fields, on either platform, gives back the fields unchanged |
| Lifecycle.InitData | dist/nativescript-vue-shadow.esm.js:351-395 | `init`'s data pass is `initializeCommonData` on the elevation, then the platform coercion, then the merge of the bound object when it has a truthy `elevation`, and nothing more; without such an object the elevation is what `initializeCommonData` made it |
| Lifecycle.LoadFrom | dist/nativescript-vue-shadow.esm.js:333-350 | the `||` merge on the active platform's fields; the bundled Android list leaves out `pressedElevation` |
| Lifecycle.ApplyShadow | dist/nativescript-vue-shadow.esm.js:303-332 | nothing happens when no shadow is requested or the SDK is below 21; on iOS only the wrapper (when present) changes; elsewhere only the element's view changes, to `Shadow.apply` of the fields |
| Lifecycle.RemoveFirst | dist/nativescript-vue-shadow.esm.js:282-288 | removing a subscription removes exactly one occurrence, if any |
| Lifecycle.Init | dist/nativescript-vue-shadow.esm.js:351-397 | the first call stores `InitData` of the fields and binds the events; when the view is already loaded the result is `load` of the initialised, subscribed directive, otherwise nothing loads and the view, wrapper, redraw slot and saved hook are untouched; every later call changes nothing; the subscription invariant is kept |
| Lifecycle.BindEvents | dist/nativescript-vue-shadow.esm.js:272-281 | subscribes load and unload once; when the view is loaded the result is `load` of the subscribed directive, otherwise just the subscription; a no-op when already bound |
| Lifecycle.Patch | dist/nativescript-vue-shadow.esm.js:292-295 | the redraw slot holds the patch and the hook it displaced is saved; nothing else changes |
| Lifecycle.Load | src/vue-shadow.ts:147-164 | marks loaded; the view and the wrapper end as `applyShadow` leaves them for the marked directive, after a first `init` when the older variant has not initialised; otherwise the fields and subscriptions are kept; on Android the redraw slot ends with the patch chained to what was there |
| Lifecycle.Unload | dist/nativescript-vue-shadow.esm.js:297-302 | clears `loaded` and on Android restores the redraw hook seen at construction |
| Lifecycle.UnbindEvents | dist/nativescript-vue-shadow.esm.js:282-288 | when bound, removes one load and one unload subscription; otherwise nothing |
| Lifecycle.Destroy | dist/nativescript-vue-shadow.esm.js:431-437 | when initialised, unloads, unbinds and clears `initialized`, restoring the Android redraw hook; the directive's other fields (wrapper, saved hook, style) and the element's view stay as they were; otherwise nothing |
| Lifecycle.OnUpdate | dist/nativescript-vue-shadow.esm.js:412-430 | acts only when loaded and the value is truthy; a string or number replaces shadow and elevation unparsed; an object with truthy `elevation` replaces both and merges; the result is `applyShadow` of the directive holding the new shadow and fields |
| Lifecycle.OnChanges | src/vue-shadow.ts:190-227 | acts only when loaded and a watched key is present; a numeric `shadow` without `elevation` becomes the elevation; a new `shadow` with a truthy `elevation` merges the current `shadow` object, and on Android or iOS throws a `TypeError` (changing nothing) exactly when there is no current one; otherwise the result is `applyShadow` of the directive holding the new fields; `shadow` itself is never replaced; defined for the older variant only |
| Lifecycle.AddIosWrapper | dist/nativescript-vue-shadow.esm.js:398-411 | only the bundled directive on iOS gains a wrapper; nothing else changes |
| Lifecycle.Fire | dist/nativescript-vue-shadow.esm.js:272-281 | a view event sets the loaded flag and runs the directive's handler once per subscription: with none the scene is only flagged, with one it is `load` or `unload` of the flagged scene; the subscription invariant is kept |
| Lifecycle.RedrawTrace | dist/nativescript-vue-shadow.esm.js:194-197 | the patch runs the saved hook (the original one or another library's) and then re-applies the shadow; an unpatched slot runs only its own hook; a missing hook cannot be called; a patch saved as its own predecessor recurses without end |
| LifecycleProperties.ShorthandInitAgrees | dist/nativescript-vue-shadow.esm.js:199-202 | binding `n` or `"n"` gives elevation `n` after `init` |
| LifecycleProperties.ShorthandGarbageIsNaN | dist/nativescript-vue-shadow.esm.js:243-252 | an unparsable shorthand ends as NaN after `init`, not 2, because the constructor already set the elevation |
| LifecycleProperties.ShorthandFallbackIsTwo | dist/nativescript-vue-shadow.esm.js:243-252 | with a falsy elevation, an unparsable or zero shorthand falls back to elevation 2 |
| LifecycleProperties.InitDataOfPrimitive | dist/nativescript-vue-shadow.esm.js:351-397 | with a primitive shadow, `init` settles the elevation by `initializeCommonData` alone |
| LifecycleProperties.InitKeepsTruthyObjectFields | dist/nativescript-vue-shadow.esm.js:360-366 | after `init`, every merged field the bound object gives truthily equals the object's own value |
| LifecycleProperties.InitReimportsRawStrings | dist/nativescript-vue-shadow.esm.js:253-260 | on Android, `{elevation: "4", cornerRadius: "8"}` keeps both as strings after `init` |
| LifecycleProperties.InitTakesTruthyObjectField | dist/nativescript-vue-shadow.esm.js:351-366 | the first `init` call takes each truthy merged field from the bound object |
| LifecycleProperties.LegacyShorthandIgnored | src/vue-shadow.ts:69-70 | the older directive requests no shadow for a bare string or number |
| LifecycleProperties.LegacyAndroidMergeFrame | src/vue-shadow.ts:310-316 | the older Android merge leaves the pressed fields, the press flag and all iOS fields alone |
| LifecycleProperties.InitIdempotent | dist/nativescript-vue-shadow.esm.js:351-353 | `init` twice equals `init` once |
| LifecycleProperties.SubscribedOnce | dist/nativescript-vue-shadow.esm.js:272-281 | after repeated `init` and `bindEvents` each handler is subscribed exactly once |
| LifecycleProperties.DestroyIdempotent | dist/nativescript-vue-shadow.esm.js:431-437 | `destroy` twice equals `destroy` once |
| LifecycleProperties.InitDestroyRestoresElement | dist/nativescript-vue-shadow.esm.js:431-437 | `init` then `destroy` gives back the element's subscriptions and its original Android redraw hook |
| LifecycleProperties.DestroyedIgnoresLoadedEvent | dist/nativescript-vue-shadow.esm.js:282-288 | after `destroy` a loaded event no longer changes the directive |
| LifecycleProperties.RedrawAfterLoad | dist/nativescript-vue-shadow.esm.js:289-296 | after a load on Android the redraw runs the patch chained to whatever the slot held before |
| LifecycleProperties.LoadChainsForeignPatch | dist/nativescript-vue-shadow.esm.js:194-197 | another library's redraw patch still runs, before the shadow is re-applied |
| LifecycleProperties.DoubleLoadRecurses | dist/nativescript-vue-shadow.esm.js:289-296 | two loads with no unload between them make the redraw call itself without end |
| LifecycleProperties.LoadUnloadLoadChainsOnce | dist/nativescript-vue-shadow.esm.js:289-302 | load, unload, load chains the patch to the original hook exactly once |
| LifecycleProperties.UnloadRestoresOriginal | dist/nativescript-vue-shadow.esm.js:297-302 | unload restores the construction-time hook after any number of loads |
| LifecycleProperties.LegacyEarlyLoadRecurses | src/vue-shadow.ts:147-164 | the older `load` on an uninitialised, already-loaded view loads twice within the one call and leaves the patch chained to itself |
| LifecycleProperties.OnUpdateKeepsPressedElevation | dist/nativescript-vue-shadow.esm.js:412-430 | the bundled `onUpdate` never changes `pressedElevation` |
| LifecycleProperties.OnUpdateKeepsOnFalsy | dist/nativescript-vue-shadow.esm.js:333-350 | a falsy incoming field keeps the value the directive had |
| LifecycleProperties.OnUpdateStoresShorthandRaw | dist/nativescript-vue-shadow.esm.js:414-417 | a string shorthand given to `onUpdate` is stored as it is, without `parseInt` |
| LifecycleProperties.UseShadowPathChangeIgnored | src/vue-shadow.ts:190-208 | a change to `useShadowPath` alone does nothing |
| LifecycleProperties.UseShadowMapChangeReapplies | src/vue-shadow.ts:190-227 | a change to `useShadowMap` re-applies the shadow with the fields as they were |
| LifecycleProperties.NumericShadowChangeSetsElevation | src/vue-shadow.ts:211-217 | a numeric `shadow` change without `elevation` becomes the elevation, and `shadow` is kept |
| LifecycleProperties.OnChangesMergesCurrentShadow | src/vue-shadow.ts:218-224 | a change whose new `shadow` object has a truthy `elevation` throws iff on Android or iOS the current `shadow` is `undefined` or `null`, and otherwise leaves the fields as the merge of the current `shadow` object |
| LifecycleProperties.OnChangesMergesOldShadow | src/vue-shadow.ts:218-224 | a new `shadow` object with a new `bgcolor` is not taken up: the old object is merged instead |
| LifecycleProperties.OnChangesThrowsWithoutShadow | src/vue-shadow.ts:218-222 | an older directive bound to `{elevation: 3}` has no `shadow`, so on Android a change to `{shadow: {elevation: 5}}` throws a `TypeError` |
| LifecycleProperties.StepConsistent | dist/nativescript-vue-shadow.esm.js:272-288 | every public call and view event keeps each handler subscribed once while bound and not at all otherwise; an `onChanges` that throws, or a call to `onUpdate` or `onChanges` on the variant that lacks it, leaves the scene as it was |
| LifecycleProperties.RunConsistent | dist/nativescript-vue-shadow.esm.js:272-288 | the subscription invariant holds over any sequence of calls and events |
| LifecycleProperties.FreshRunConsistent | dist/nativescript-vue-shadow.esm.js:190-288 | a directive bound to an element with none of its own subscriptions keeps the invariant forever |
| Plugin.Install | dist/nativescript-vue-shadow.esm.js:488-497 | the first call maps `shadow` to this plugin's hooks, replacing any earlier definition of that name, and leaves every other name as it was; every later call, on any Vue, changes nothing |
| Plugin.InstallRegistersOnce | dist/nativescript-vue-shadow.esm.js:488-497 | installing twice is installing once: `shadow` is registered and every other name is as it was |
| Plugin.SecondVueGetsNothing | dist/nativescript-vue-shadow.esm.js:488-497 | after the first install, another Vue is left as it was |
| Plugin.BindHook | dist/nativescript-vue-shadow.esm.js:440-444 | `bind` stores a bundled directive that is initialised, holds `InitData` of the constructed fields, is loaded iff the view is, and adds one load and one unload subscription to the element; on a loaded view the result is `load` of that initialised, subscribed directive, which draws the shadow and on Android puts the patch in the redraw slot; on a view not yet loaded the view and the redraw slot are untouched |
| Plugin.InsertedHook | dist/nativescript-vue-shadow.esm.js:445-448 | fails iff no directive is stored, else adds the wrapper to it |
| Plugin.UpdateHook | dist/nativescript-vue-shadow.esm.js:449-452 | fails iff no directive is stored, else passes the value to `onUpdate` |
| Plugin.UnbindHook | dist/nativescript-vue-shadow.esm.js:453-457 | fails iff no directive is stored, else destroys it and clears the slot |
| Plugin.BindUnbindRoundTrip | dist/nativescript-vue-shadow.esm.js:440-457 | bind then unbind gives back the element's subscriptions and Android redraw hook and keeps the view `bind` drew on; a second unbind fails |
| Plugin.UnbindRestores | dist/nativescript-vue-shadow.esm.js:453-457 | unbinding a directive `bind` left subscribed on an element gives back that element's subscriptions and Android redraw hook, keeps the view, and empties the slot |
| Plugin.UpdateBeforeLoadIsIgnored | dist/nativescript-vue-shadow.esm.js:412-413 | an update before the view ever loaded changes nothing |
| Plugin.LegacyBindHook | src/vue-shadow.ts:331-339 | the older `bind` leaves an initialised directive that nothing keeps, holding `InitData` of the constructed fields, loaded iff the view is, with one load and one unload subscription added to the element; on a loaded view it is `load` of that directive, which draws the shadow and on Android patches the redraw slot; otherwise the view and the redraw slot are untouched |
| Plugin.LegacyOtherHook | src/vue-shadow.ts:340-368 | the older `inserted`, `update`, `componentUpdated` and `unbind` leave the element unchanged |
| Plugin.LegacyUnbindKeepsSubscriptions | src/vue-shadow.ts:361-368 | after the older `unbind`, the bound directive is still subscribed once and a loaded event still loads it |

## Left out

- Native rendering: drawables, animators and layers are symbolic values. Density conversion (`androidDipToPx`, `Length.toDevicePixels`) is kept as an unevaluated `DipPx`/`LengthPx` of the input, and colour parsing as `ParsedColour`.
- The `getAndroidR` class/field cache: only its result, the short animation time, is used; it is a field of the environment.
- Weak-listener internals: subscriptions are a list of (event, handler) pairs. Removal drops the first match. Listeners of several directive instances on one element are not told apart, and neither are their redraw patches: `ShadowPatch` is one value for every instance, so which instance's closure sits in the redraw slot is not recorded.
- The tree splicing in `addIOSWrapper`: the model only records whether a wrapper view is present.
- The global auto-install in `src/index.ts`, the `Elevation` enum, `console.log` calls and the type declarations.
- `parseInt`/`parseFloat`/`Number()` on hexadecimal, exponent and `Infinity` forms, and `parseInt` of a number whose string form uses an exponent: the scanner reads only decimal digits, a sign and one point. `parseInt` of a number is its truncation.
- Floating point: numbers are exact reals or NaN. `toFixed(2)` rounds half up exactly on reals.
- What the view's own redraw method draws: the redraw trace records only which hooks run, in which order.
- Lifecycle.Fire: delivers an event to the directive's own subscriptions only. Other subscribers' handlers are not run.
- Shadow.ApplyOnAndroidIdempotent: holds only when the rebuilt shadow is layered or the base had no colour of its own. `ReapplyForgetsBackgroundColour` shows that the source does not promise more.
- Shadow.ApplyIdempotent: carries the same colour exception.
- Shadow.ApplyOnAndroid: requires an Android surface, as its only caller `Shadow.apply` guarantees.
- Shadow.ApplyOnIOS: requires an iOS surface, as its only caller `Shadow.apply` guarantees.

=== FILE: js_numbers.dfy ===
/**
 * The numeric conversions the directive relies on: `parseInt(x, 10)`,
 * `parseFloat(x)`, the unary conversion behind `x - 0`, and
 * `parseFloat(x.toFixed(2))`. Strings are scanned as decimal literals:
 * leading white space, an optional sign, digits, an optional fraction.
 */
module JsNumbers {
  import opened JsValues
  import opened Wrappers

  predicate IsDigit(c: char) { '0' <= c <= '9' }

  /**
   * The characters `parseInt`, `parseFloat` and `Number` skip around a
   * numeral: ECMAScript's white space (tab, vertical tab, form feed,
   * space, no-break space, byte order mark, the other space separators)
   * and line terminators, as sections 12.2 and 12.3 of ECMA-262 list them.
   */
  predicate IsSpace(c: char)
  {
    || c == '\t' || c == '\n' || c == '\U{0B}' || c == '\U{0C}' || c == '\r' || c == ' '
    || c == '\U{A0}' || c == '\U{1680}' || '\U{2000}' <= c <= '\U{200A}' || c == '\U{2028}' || c == '\U{2029}'
    || c == '\U{202F}' || c == '\U{205F}' || c == '\U{3000}' || c == '\U{FEFF}'
  }

  predicate AllDigits(s: string) { forall i :: 0 <= i < |s| ==> IsDigit(s[i]) }

  predicate AllSpace(s: string) { forall i :: 0 <= i < |s| ==> IsSpace(s[i]) }

  predicate Integral(r: real) { r == r.Floor as real }

  /** The value of a decimal digit; any other character counts as 0, which the scanner never asks for. */
  function DigitValue(c: char): nat
  {
    if IsDigit(c) then c as int - '0' as int else 0
  }

  function DigitChar(d: nat): (c: char)
    requires d < 10
    ensures IsDigit(c) && DigitValue(c) == d
  {
    ('0' as int + d) as char
  }

  /** The length of the longest prefix of `s` made of decimal digits. */
  function LeadingDigits(s: string): (n: nat)
    ensures n <= |s|
    ensures forall i :: 0 <= i < n ==> IsDigit(s[i])
    ensures n < |s| ==> !IsDigit(s[n])
  {
    if |s| == 0 || !IsDigit(s[0]) then 0 else 1 + LeadingDigits(s[1..])
  }

  /** The length of the longest prefix of `s` made of white space. */
  function LeadingSpaces(s: string): (n: nat)
    ensures n <= |s|
    ensures forall i :: 0 <= i < n ==> IsSpace(s[i])
    ensures n < |s| ==> !IsSpace(s[n])
  {
    if |s| == 0 || !IsSpace(s[0]) then 0 else 1 + LeadingSpaces(s[1..])
  }

  /** The value of a string of decimal digits, most significant first. */
  function DigitsValue(ds: string): nat
  {
    if |ds| == 0 then 0 else 10 * DigitsValue(ds[..|ds| - 1]) + DigitValue(ds[|ds| - 1])
  }

  function Pow10(k: nat): (p: nat)
    ensures p >= 1
  {
    if k == 0 then 1 else 10 * Pow10(k - 1)
  }

  /** The shortest decimal spelling of a natural number. */
  function DecimalString(n: nat): (s: string)
    ensures |s| >= 1 && AllDigits(s)
  {
    if n < 10 then [DigitChar(n)] else DecimalString(n / 10) + [DigitChar(n % 10)]
  }

  /** The decimal spelling of an integer, with a leading `-` when negative. */
  function IntString(n: int): (s: string)
    ensures |s| >= 1 && (s[0] == '-' <==> n < 0)
  {
    if n < 0 then "-" + DecimalString(-n) else DecimalString(n)
  }

  /** An optional leading sign: whether it is `-`, and how many characters it takes. */
  function SignOf(t: string): (r: (bool, nat))
    ensures r.1 <= 1 && r.1 <= |t|
  {
    if |t| > 0 && (t[0] == '-' || t[0] == '+') then (t[0] == '-', 1) else (false, 0)
  }

  /** A scanned decimal literal: sign, whole part, fraction digits, and characters consumed. */
  datatype Decimal = Decimal(negative: bool, whole: nat, fraction: nat, fractionDigits: nat, length: nat)

  function DecimalValue(d: Decimal): real
  {
    var m := Scaled(d.whole, d.fraction, d.fractionDigits);
    if d.negative then -m else m
  }

  /**
   * Scans `sign? digits* ('.' digits*)?` at the start of `t`, demanding at
   * least one digit; `None` when there is none.
   */
  function ScanDecimal(t: string): (r: Option<Decimal>)
    ensures r.Some? ==> r.value.length <= |t|
  {
    var sign := SignOf(t);
    ApplySign(sign.0, sign.1, ScanUnsigned(t[sign.1..]))
  }

  /** Attaches a scanned sign to an unsigned scan. */
  function ApplySign(negative: bool, signLength: nat, scan: Option<Decimal>): Option<Decimal>
  {
    match scan
    case None => None
    case Some(d) => Some(Decimal(negative, d.whole, d.fraction, d.fractionDigits, d.length + signLength))
  }

  /** Scans `digits* ('.' digits*)?` with at least one digit. */
  function ScanUnsigned(u: string): (r: Option<Decimal>)
    ensures r.Some? ==> !r.value.negative && r.value.length <= |u|
  {
    var k := LeadingDigits(u);
    ScanParts(u[..k], u[k..])
  }

  /** The scan once the leading digit run is split off: the run, then an optional fraction. */
  function ScanParts(digits: string, rest: string): (r: Option<Decimal>)
    ensures r.Some? ==> !r.value.negative && r.value.length <= |digits| + |rest|
  {
    var frac := ScanFraction(rest);
    if |digits| == 0 && frac.1 == 0 then None
    else Some(Decimal(false, DigitsValue(digits), frac.0, frac.1, |digits| + frac.2))
  }

  /** Scans `('.' digits*)?`: the fraction's value, its digit count, and characters consumed. */
  function ScanFraction(rest: string): (r: (nat, nat, nat))
    ensures r.2 <= |rest|
    ensures r.1 <= r.2
  {
    if |rest| > 0 && rest[0] == '.' then
      var f := LeadingDigits(rest[1..]);
      (DigitsValue(rest[1..][..f]), f, 1 + f)
    else (0, 0, 0)
  }

  /** `parseInt(s, 10)`: the longest integer prefix after white space, or NaN. */
  function ParseInt(s: string): (r: Number)
    ensures r.Finite? ==> Integral(r.value)
  {
    var t := s[LeadingSpaces(s)..];
    var (neg, sl) := SignOf(t);
    var u := t[sl..];
    var k := LeadingDigits(u);
    if k == 0 then NaN else Finite(Signed(neg, DigitsValue(u[..k])) as real)
  }

  function Signed(negative: bool, m: nat): int
  {
    if negative then -(m as int) else m
  }

  /** `parseFloat(s)`: the longest decimal prefix after white space, or NaN. */
  function ParseFloat(s: string): Number
  {
    ValueOf(ScanDecimal(s[LeadingSpaces(s)..]))
  }

  /** The number a scan denotes: NaN when nothing was scanned. */
  function ValueOf(scan: Option<Decimal>): Number
  {
    match scan
    case None => NaN
    case Some(d) => Finite(DecimalValue(d))
  }

  /** `Number(s)`: blank is 0, a whole decimal literal between white space is its value, anything else NaN. */
  function StringToNumber(s: string): Number
  {
    var t := s[LeadingSpaces(s)..];
    if AllSpace(t) then Finite(0.0)
    else match ScanDecimal(t)
      case None => NaN
      case Some(d) => if AllSpace(t[d.length..]) then Finite(DecimalValue(d)) else NaN
  }

  /** Truncation toward zero, which is what `parseInt` does to the decimal spelling of a number. */
  function Trunc(r: real): int
  {
    if r >= 0.0 then r.Floor else -((-r).Floor)
  }

  /** `parseInt(v, 10)` for any value: the value is first turned into its string. */
  function ParseIntOf(v: JsVal): (r: Number)
    ensures r.Finite? ==> Integral(r.value)
  {
    match v
    case Num(Finite(x)) => Finite(Trunc(x) as real)
    case Str(s) => ParseInt(s)
    case _ => NaN
  }

  /** `parseFloat(String(v))`: a number reads back as itself, a string is scanned, anything else is NaN. */
  function ParseFloatOf(v: JsVal): Number
  {
    match v
    case Num(n) => n
    case Str(s) => ParseFloat(s)
    case _ => NaN
  }

  /** The numeric conversion applied by `v - 0`. */
  function ToNumber(v: JsVal): Number
  {
    match v
    case Undefined => NaN
    case Null => Finite(0.0)
    case Bool(b) => Finite(if b then 1.0 else 0.0)
    case Num(n) => n
    case Str(s) => StringToNumber(s)
    case Obj(_) => NaN
  }

  /** Rounding to two decimals as `toFixed(2)` does: to the nearest hundredth, halves away from zero. */
  function RoundCents(x: real): real
  {
    if x >= 0.0 then (x * 100.0 + 0.5).Floor as real / 100.0
    else -(((-x) * 100.0 + 0.5).Floor as real / 100.0)
  }

  /** `parseFloat(n.toFixed(2))`. */
  function ToFixed2(n: Number): Number
  {
    match n
    case NaN => NaN
    case Finite(x) => Finite(RoundCents(x))
  }

  // ---------------------------------------------------------------------
  // Properties of the scanner
  // ---------------------------------------------------------------------

  /** Reading back the decimal spelling of `n` gives `n`. */
  lemma {:induction false} DigitsValueOfDecimalString(n: nat)
    ensures DigitsValue(DecimalString(n)) == n
  {
    var s := DecimalString(n);
    if n >= 10 {
      var head := DecimalString(n / 10);
      assert s == head + [DigitChar(n % 10)];
      assert s[..|s| - 1] == head;
      DigitsValueOfDecimalString(n / 10);
    }
  }

  /** Digits followed by something that is not a digit: the digit run is exactly the first part. */
  lemma {:induction false} LeadingDigitsOfConcat(a: string, b: string)
    requires AllDigits(a)
    requires |b| == 0 || !IsDigit(b[0])
    ensures LeadingDigits(a + b) == |a|
    ensures (a + b)[..|a|] == a
  {
    if |a| > 0 {
      assert (a + b)[1..] == a[1..] + b;
      LeadingDigitsOfConcat(a[1..], b);
    }
  }

  /** `parseInt` reads back the spelling of any integer. */
  lemma {:induction false} ParseIntRoundTrip(n: int)
    ensures ParseInt(IntString(n)) == Finite(n as real)
  {
    var s := IntString(n);
    var m: nat := if n < 0 then -n else n;
    var ds := DecimalString(m);
    LeadingDigitsOfConcat(ds, []);
    assert ds + [] == ds;
    DigitsValueOfDecimalString(m);
    assert s[0] == '-' || IsDigit(s[0]);
    assert LeadingSpaces(s) == 0;
    assert s[0..] == s;
    if n < 0 {
      assert s[1..] == ds;
    }
  }

  /** `parseInt` stops at the first non-digit, so `"8px"` reads as 8. */
  lemma {:induction false} ParseIntIgnoresTrailingText(n: nat, suffix: string)
    requires |suffix| == 0 || !IsDigit(suffix[0])
    ensures ParseInt(DecimalString(n) + suffix) == Finite(n as real)
  {
    var ds := DecimalString(n);
    var s := ds + suffix;
    LeadingDigitsOfConcat(ds, suffix);
    DigitsValueOfDecimalString(n);
    assert s[0] == ds[0];
    assert LeadingSpaces(s) == 0;
    assert s[0..] == s;
  }

  /** A run of digits followed by a non-digit: the digit run is the first part. */
  lemma {:induction false} PrefixIsDigitRun(s: string, a: string, b: string)
    requires s == a + b && AllDigits(a)
    requires |b| == 0 || !IsDigit(b[0])
    ensures LeadingDigits(s) == |a| && s[..|a|] == a && s[|a|..] == b
  {
    LeadingDigitsOfConcat(a, b);
  }

  /** Scanning `.fraction` reads every fraction digit. */
  lemma {:induction false} ScanOfFraction(fraction: string)
    requires AllDigits(fraction)
    ensures ScanFraction("." + fraction) == (DigitsValue(fraction), |fraction|, 1 + |fraction|)
  {
    var rest := "." + fraction;
    assert rest[1..] == fraction;
    PrefixIsDigitRun(fraction, fraction, []);
  }

  /** Scanning a digit run followed by a fraction of `n` digits worth `f`, without a sign, reads both parts. */
  lemma {:induction false} ScanUnsignedOfDigitsThenFraction(whole: string, rest: string, f: nat, n: nat)
    requires |whole| >= 1 && AllDigits(whole)
    requires |rest| >= 1 && rest[0] == '.'
    requires ScanFraction(rest) == (f, n, 1 + n)
    ensures ScanUnsigned(whole + rest) == Some(Decimal(false, DigitsValue(whole), f, n, |whole| + 1 + n))
  {
    ScanPartsOfFraction(whole, rest, f, n);
    PrefixIsDigitRun(whole + rest, whole, rest);
    ScanUnsignedSplit(whole + rest, whole, rest);
  }

  /** A non-empty digit run followed by a fraction of `n` digits worth `f`. */
  lemma {:induction false} ScanPartsOfFraction(whole: string, rest: string, f: nat, n: nat)
    requires |whole| >= 1 && AllDigits(whole)
    requires ScanFraction(rest) == (f, n, 1 + n)
    ensures ScanParts(whole, rest) == Some(Decimal(false, DigitsValue(whole), f, n, |whole| + 1 + n))
  {
  }

  /** Once the leading digit run of `u` is known, scanning `u` is scanning its two parts. */
  lemma {:induction false} ScanUnsignedSplit(u: string, whole: string, rest: string)
    requires LeadingDigits(u) == |whole| && u[..|whole|] == whole && u[|whole|..] == rest
    ensures ScanUnsigned(u) == ScanParts(whole, rest)
  {
  }

  /** Scanning `whole.fraction` reads both parts and consumes everything. */
  lemma {:induction false} ScanOfDecimalLiteral(whole: string, fraction: string)
    requires |whole| >= 1 && AllDigits(whole) && AllDigits(fraction)
    ensures ScanDecimal(whole + "." + fraction)
         == Some(Decimal(false, DigitsValue(whole), DigitsValue(fraction), |fraction|, |whole| + 1 + |fraction|))
  {
    var rest := "." + fraction;
    var t := whole + rest;
    var d := Decimal(false, DigitsValue(whole), DigitsValue(fraction), |fraction|, |whole| + 1 + |fraction|);
    assert ScanUnsigned(t) == Some(d) by {
      ScanOfFraction(fraction);
      ScanUnsignedOfDigitsThenFraction(whole, rest, DigitsValue(fraction), |fraction|);
    }
    assert whole + "." + fraction == t;
    assert SignOf(t) == (false, 0) by {
      assert t[0] == whole[0];
    }
    assert t[0..] == t;
  }

  /** Scanning a plain run of digits reads it whole. */
  lemma {:induction false} ScanOfDigits(ds: string)
    requires |ds| >= 1 && AllDigits(ds)
    ensures ScanDecimal(ds) == Some(Decimal(false, DigitsValue(ds), 0, 0, |ds|))
  {
    assert SignOf(ds) == (false, 0);
    assert ds[0..] == ds;
    PrefixIsDigitRun(ds, ds, []);
  }

  /** Text that starts with a digit has no leading white space. */
  lemma {:induction false} NoLeadingSpace(s: string)
    requires |s| >= 1 && IsDigit(s[0])
    ensures s[LeadingSpaces(s)..] == s
  {
    assert LeadingSpaces(s) == 0;
  }

  /** `parseFloat` of `whole.fraction` is the exact decimal value. */
  lemma {:induction false} ParseFloatOfDecimalLiteral(whole: string, fraction: string)
    requires |whole| >= 1 && AllDigits(whole) && AllDigits(fraction)
    ensures ParseFloat(whole + "." + fraction) == Finite(FixedPoint(whole, fraction))
  {
    var s := whole + "." + fraction;
    assert s[0] == whole[0];
    NoLeadingSpace(s);
    ScanOfDecimalLiteral(whole, fraction);
    var d := Decimal(false, DigitsValue(whole), DigitsValue(fraction), |fraction|, |whole| + 1 + |fraction|);
    assert ScanDecimal(s[LeadingSpaces(s)..]) == Some(d);
    assert ParseFloat(s) == ValueOf(Some(d));
    assert ValueOf(Some(d)) == Finite(DecimalValue(d));
    assert DecimalValue(d) == FixedPoint(whole, fraction);
  }

  /** The value written `whole.fraction` in decimal. */
  function FixedPoint(whole: string, fraction: string): real
  {
    Scaled(DigitsValue(whole), DigitsValue(fraction), |fraction|)
  }

  /** `whole + fraction / 10^digits`. */
  function Scaled(whole: nat, fraction: nat, digits: nat): real
  {
    whole as real + fraction as real / Pow10(digits) as real
  }

  /** `parseFloat` and `parseInt` agree on the spelling of a natural number. */
  lemma {:induction false} ParseFloatOfIntegerString(n: nat)
    ensures ParseFloat(DecimalString(n)) == Finite(n as real)
  {
    var ds := DecimalString(n);
    NoLeadingSpace(ds);
    ScanOfDigits(ds);
    DigitsValueOfDecimalString(n);
  }

  /** `parseInt` leaves an integral number unchanged. */
  lemma {:induction false} ParseIntOfIntegral(n: int)
    ensures ParseIntOf(IntNum(n)) == Finite(n as real)
  {
    if n >= 0 {
      assert (n as real).Floor == n;
    } else {
      assert (-(n as real)).Floor == -n;
    }
  }

  /** `toFixed(2)` does not move an integer. */
  lemma {:induction false} RoundCentsOfInteger(n: int)
    ensures RoundCents(n as real) == n as real
  {
    if n >= 0 {
      assert (n as real * 100.0 + 0.5).Floor == n * 100;
    } else {
      assert ((-n) as real * 100.0 + 0.5).Floor == -n * 100;
    }
  }
}

=== FILE: js_values.dfy ===
/**
 * The JavaScript values that flow through the directive: bound values,
 * style fields and the keys tested with `in` / `hasOwnProperty`.
 * Truthiness is spelled out so that the difference between `a || b`
 * and `a !== undefined ? a : b` stays visible.
 */
module JsValues {

  /** A JavaScript number: a finite value (exact here) or NaN. */
  datatype Number = Finite(value: real) | NaN

  datatype JsVal =
    | Undefined
    | Null
    | Num(n: Number)
    | Str(s: string)
    | Bool(b: bool)
    | Obj(props: map<string, JsVal>)

  /** The result of the `typeof` operator for the values above. */
  datatype JsType = UndefinedType | ObjectType | NumberType | StringType | BooleanType

  function TypeOf(v: JsVal): JsType
  {
    match v
    case Undefined => UndefinedType
    case Null => ObjectType
    case Num(_) => NumberType
    case Str(_) => StringType
    case Bool(_) => BooleanType
    case Obj(_) => ObjectType
  }

  /** JavaScript truthiness: `undefined`, `null`, `0`, `NaN`, `''` and `false` are falsy. */
  predicate Truthy(v: JsVal)
  {
    match v
    case Undefined => false
    case Null => false
    case Num(n) => n.Finite? && n.value != 0.0
    case Str(s) => s != ""
    case Bool(b) => b
    case Obj(_) => true
  }

  /** `typeof v === 'string' || typeof v === 'number'`. */
  predicate IsNumberish(v: JsVal)
  {
    TypeOf(v) == StringType || TypeOf(v) == NumberType
  }

  /** The JavaScript expression `a || b`. */
  function Or(a: JsVal, b: JsVal): (r: JsVal)
    ensures Truthy(r) <==> Truthy(a) || Truthy(b)
    ensures r == a || r == b
  {
    if Truthy(a) then a else b
  }

  /** Property read `v.key`; reading a missing property, or any property of a primitive here, gives `undefined`. */
  function Get(v: JsVal, key: string): JsVal
  {
    match v
    case Obj(m) => if key in m then m[key] else Undefined
    case _ => Undefined
  }

  /** `key in v` (and `v.hasOwnProperty(key)`): presence, whatever the value. */
  predicate Has(v: JsVal, key: string)
  {
    v.Obj? && key in v.props
  }

  /** A finite integral number. */
  function IntNum(n: int): JsVal
  {
    Num(Finite(n as real))
  }
}

=== FILE: lifecycle.dfy ===
/**
 * The per-element `NativeShadowDirective` state machine, in its two
 * variants: `Dist` (the bundled directive, with `onUpdate` and
 * platform-gated intake) and `Legacy` (the older TypeScript directive,
 * with verbatim intake and `onChanges`). Both share one lifecycle over a
 * `Scene`: the platform environment, the directive's own fields and the
 * element it is bound to.
 */
module Lifecycle {
  import opened JsValues
  import opened JsNumbers
  import opened Wrappers
  import opened StyleRecord
  import opened NativeViews
  import Shadow

  datatype Variant = Dist | Legacy

  /**
   * What the view's `_redrawNativeBackground` slot can hold: the view's
   * own method, some other library's patch, or this directive's
   * `monkeyPatch`.
   */
  datatype Hook = OriginalRedraw | ForeignRedraw(id: nat) | ShadowPatch

  datatype Event = Loaded | Unloaded

  datatype Handler = LoadHandler | UnloadHandler | OtherHandler(id: nat)

  /** One weak subscription on the native view. */
  datatype Listener = Listener(event: Event, handler: Handler)

  /** The bound element's native view and what hangs off it. */
  datatype Element = Element(view: TnsView, redraw: Option<Hook>, isLoaded: bool, listeners: seq<Listener>)

  /** The directive instance's fields. */
  datatype Directive = Directive(
    variant: Variant,
    shadow: JsVal,
    style: Style,
    loaded: bool,
    initialized: bool,
    eventsBound: bool,
    originalRedraw: Option<Hook>,
    previousRedraw: Option<Hook>,
    wrapper: Option<TnsView>)

  datatype Scene = Scene(env: Env, dir: Directive, el: Element)

  const LoadListener := Listener(Loaded, LoadHandler)
  const UnloadListener := Listener(Unloaded, UnloadHandler)

  // ---------------------------------------------------------------------
  // Construction
  // ---------------------------------------------------------------------

  /** The shadow value and fields taken from a bound value. */
  datatype Intake = Intake(shadow: JsVal, style: Style)

  /**
   * Bundled constructor intake: a truthy string or number is shorthand for
   * both `shadow` and `elevation`; an object counts only when its
   * `elevation` is truthy, and then brings its Android fields only on
   * Android and only when one of them is present (`in` test), or
   * likewise its iOS fields on iOS. Anything else is ignored.
   */
  function DistIntake(platform: Platform, value: JsVal): (r: Intake)
    ensures Truthy(value) && IsNumberish(value) ==> r == Intake(value, With(Unset, Elevation, value))
    ensures value.Obj? && Truthy(Get(value, "elevation")) ==> r.shadow == value && r.style.elevation == Get(value, "elevation")
    ensures value.Obj? && Truthy(Get(value, "elevation")) ==>
              var android := platform == AndroidPlatform && HasAnyKey(value, AndroidKeys);
              forall k :: k in AndroidKeys ==> Field(r.style, k) == (if android then Get(value, Name(k)) else Undefined)
    ensures value.Obj? && Truthy(Get(value, "elevation")) ==>
              var ios := platform == IosPlatform && HasAnyKey(value, IosKeys);
              forall k :: k in IosKeys ==> Field(r.style, k) == (if ios then Get(value, Name(k)) else Undefined)
    ensures !(Truthy(value) && IsNumberish(value)) && !(value.Obj? && Truthy(Get(value, "elevation"))) ==>
              r == Intake(Undefined, Unset)
  {
    if Truthy(value) && IsNumberish(value) then Intake(value, With(Unset, Elevation, value))
    else if value.Obj? && Truthy(Get(value, "elevation")) then
      var base := With(Unset, Elevation, Get(value, "elevation"));
      assert forall k :: k != Elevation ==> Field(base, k) == Undefined by {
        forall k | k != Elevation ensures Field(base, k) == Undefined { UnsetField(k); }
      }
      assert forall k :: !(k in AndroidKeys && k in IosKeys) && (k in AndroidKeys || k in IosKeys ==> k != Elevation) by {
        forall k ensures !(k in AndroidKeys && k in IosKeys) && (k in AndroidKeys || k in IosKeys ==> k != Elevation) {
          KeyListsDisjoint(k);
        }
      }
      Intake(value, PlatformFields(platform, value, base))
    else Intake(Undefined, Unset)
  }

  /** The platform-gated part of the bundled intake: Android fields first, else iOS fields, else none. */
  function PlatformFields(platform: Platform, value: JsVal, s: Style): (r: Style)
    ensures platform == AndroidPlatform && HasAnyKey(value, AndroidKeys) ==> r == Copy(s, value, AndroidKeys)
    ensures platform == IosPlatform && HasAnyKey(value, IosKeys) ==> r == Copy(s, value, IosKeys)
    ensures (!(platform == AndroidPlatform && HasAnyKey(value, AndroidKeys)) &&
             !(platform == IosPlatform && HasAnyKey(value, IosKeys))) ==> r == s
  {
    if platform == AndroidPlatform && HasAnyKey(value, AndroidKeys) then Copy(s, value, AndroidKeys)
    else if platform == IosPlatform && HasAnyKey(value, IosKeys) then Copy(s, value, IosKeys)
    else s
  }

  /**
   * Older constructor intake: when the bound value is truthy, `shadow` and
   * every field are read from it verbatim, with no platform gating and no
   * shorthand (a bare number has no `shadow` property).
   */
  function LegacyIntake(value: JsVal): (r: Intake)
    ensures Truthy(value) ==> r.shadow == Get(value, "shadow") && forall k :: Field(r.style, k) == Get(value, Name(k))
    ensures !Truthy(value) ==> r == Intake(Undefined, Unset)
  {
    if Truthy(value) then
      var r := Intake(Get(value, "shadow"), Copy(Unset, value, AllKeys));
      assert forall k :: k in AllKeys by {
        forall k ensures k in AllKeys { KeyInAllKeys(k); }
      }
      r
    else Intake(Undefined, Unset)
  }

  /**
   * `new NativeShadowDirective(el, binding)`: the intake of the variant, all
   * flags down, and on Android the view's current redraw method kept as
   * the one to restore on unload.
   */
  function Construct(variant: Variant, env: Env, el: Element, value: JsVal): (d: Directive)
    ensures d.variant == variant
    ensures !d.loaded && !d.initialized && !d.eventsBound
    ensures d.previousRedraw.None? && d.wrapper.None?
    ensures d.originalRedraw == if env.platform == AndroidPlatform then el.redraw else None
    ensures variant == Dist ==> Intake(d.shadow, d.style) == DistIntake(env.platform, value)
    ensures variant == Legacy ==> Intake(d.shadow, d.style) == LegacyIntake(value)
  {
    var intake := if variant == Dist then DistIntake(env.platform, value) else LegacyIntake(value);
    var original := if env.platform == AndroidPlatform then el.redraw else None;
    Directive(variant, intake.shadow, intake.style, false, false, false, original, None, None)
  }

  // ---------------------------------------------------------------------
  // Normalisation and merging
  // ---------------------------------------------------------------------

  /**
   * What a shorthand value resolves to as elevation: its integer part, or
   * 2 when it is falsy or parses to 0 or NaN.
   */
  function ShorthandElevation(v: JsVal): (r: JsVal)
    ensures Truthy(r)
    ensures r.Num? && r.n.Finite? && Integral(r.n.value)
    ensures Truthy(v) && ParseIntOf(v).Finite? && ParseIntOf(v).value != 0.0 ==> r == Num(ParseIntOf(v))
    ensures !(Truthy(v) && ParseIntOf(v).Finite? && ParseIntOf(v).value != 0.0) ==> r == IntNum(2)
  {
    var n := ParseIntOf(v);
    if Truthy(v) && n.Finite? && n.value != 0.0 then Num(n) else IntNum(2)
  }

  /**
   * `initializeCommonData`: a string or number `shadow` fills a falsy
   * elevation; a string or number elevation is then replaced by its
   * `parseInt`, or by 2 when falsy. Any other elevation is left alone.
   */
  function InitializeCommonData(shadow: JsVal, elevation: JsVal): (r: JsVal)
    ensures IsNumberish(shadow) && !Truthy(elevation) ==> r == ShorthandElevation(shadow)
    ensures !(IsNumberish(shadow) && !Truthy(elevation)) && IsNumberish(elevation) ==>
              r == if Truthy(elevation) then Num(ParseIntOf(elevation)) else IntNum(2)
    ensures !(IsNumberish(shadow) && !Truthy(elevation)) && !IsNumberish(elevation) ==> r == elevation
    ensures (IsNumberish(shadow) && !Truthy(elevation)) || IsNumberish(elevation) ==>
              r.Num? && (r.n.Finite? ==> Integral(r.n.value))
  {
    var e := if IsNumberish(shadow) && !Truthy(elevation) then
               (if Truthy(shadow) then Num(ParseIntOf(shadow)) else IntNum(2))
             else elevation;
    if IsNumberish(e) then (if Truthy(e) then Num(ParseIntOf(e)) else IntNum(2)) else e
  }

  /** `typeof v === 'string' ? parseInt(v, 10) : v`. */
  function IntIfString(v: JsVal): (r: JsVal)
    ensures v.Str? ==> r == Num(ParseInt(v.s))
    ensures !v.Str? ==> r == v
  {
    if v.Str? then Num(ParseInt(v.s)) else v
  }

  /** `typeof v === 'string' ? parseFloat(v) : v`. */
  function FloatIfString(v: JsVal): (r: JsVal)
    ensures v.Str? ==> r == Num(ParseFloat(v.s))
    ensures !v.Str? ==> r == v
  {
    if v.Str? then Num(ParseFloat(v.s)) else v
  }

  const AndroidCoerced: seq<Key> := [CornerRadius, TranslationZ]
  const IosCoerced: seq<Key> := [ShadowOffset, ShadowOpacity, ShadowRadius]

  /** `initializeAndroidData`: string `cornerRadius`/`translationZ` go through `parseInt`; nothing else changes. */
  function InitializeAndroidData(s: Style): (r: Style)
    ensures forall k :: k in AndroidCoerced ==> Field(r, k) == IntIfString(Field(s, k))
    ensures forall k :: k !in AndroidCoerced ==> Field(r, k) == Field(s, k)
  {
    Rewrite(s, AndroidCoerced, (k, v) => IntIfString(v))
  }

  /** `initializeIOSData`: string offset/opacity/radius go through `parseFloat`; nothing else changes. */
  function InitializeIosData(s: Style): (r: Style)
    ensures forall k :: k in IosCoerced ==> Field(r, k) == FloatIfString(Field(s, k))
    ensures forall k :: k !in IosCoerced ==> Field(r, k) == Field(s, k)
  {
    Rewrite(s, IosCoerced, (k, v) => FloatIfString(v))
  }

  /** The fields the bundled `loadFromAndroidData` merges: every Android field except `pressedElevation`. */
  const DistAndroidMerged: seq<Key> := [Elevation, Shape, BgColor, CornerRadius, TranslationZ, PressedTranslationZ, ForcePressAnimation]

  /** The fields the older `loadFromAndroidData` merges. */
  const LegacyAndroidMerged: seq<Key> := [Elevation, Shape, BgColor, CornerRadius, TranslationZ]

  function AndroidMerged(variant: Variant): seq<Key>
  {
    if variant == Dist then DistAndroidMerged else LegacyAndroidMerged
  }

  /**
   * `loadFromAndroidData` / `loadFromIOSData` for the active platform:
   * each field the variant merges becomes `data.x || this.x`.
   */
  function LoadFrom(variant: Variant, platform: Platform, s: Style, data: JsVal): (r: Style)
    ensures platform == AndroidPlatform ==> r == Merge(s, data, AndroidMerged(variant))
    ensures platform == IosPlatform ==> r == Merge(s, data, IosKeys)
    ensures platform == OtherPlatform ==> r == s
  {
    match platform
    case AndroidPlatform => Merge(s, data, AndroidMerged(variant))
    case IosPlatform => Merge(s, data, IosKeys)
    case OtherPlatform => s
  }

  /** The object literal the bundled `init` builds from its own fields when there is no `shadow`. */
  function OwnLiteralKeys(platform: Platform): seq<Key>
  {
    if platform == AndroidPlatform then [Elevation] + AndroidKeys else [Elevation] + IosKeys
  }

  /** The active platform's `initializeAndroidData` or `initializeIOSData`; elsewhere nothing is coerced. */
  function Coerce(platform: Platform, s: Style): (r: Style)
    ensures r.elevation == s.elevation
    ensures platform == AndroidPlatform ==>
              forall k :: Field(r, k) == if k in AndroidCoerced then IntIfString(Field(s, k)) else Field(s, k)
    ensures platform == IosPlatform ==>
              forall k :: Field(r, k) == if k in IosCoerced then FloatIfString(Field(s, k)) else Field(s, k)
    ensures platform == OtherPlatform ==> r == s
  {
    var r := if platform == AndroidPlatform then InitializeAndroidData(s)
             else if platform == IosPlatform then InitializeIosData(s)
             else s;
    assert Field(r, Elevation) == Field(s, Elevation);
    r
  }

  /**
   * The bundled `init`, given no `shadow` but a truthy elevation, merges an
   * object literal of the directive's own fields back into them. Every
   * merged field reads back its own value, so the merge changes nothing.
   */
  lemma OwnLiteralMergeIsIdentity(platform: Platform, s: Style)
    ensures LoadFrom(Dist, platform, s, ObjectOf(s, OwnLiteralKeys(platform))) == s
  {
    if platform == AndroidPlatform {
      MergeOwnFieldsIsIdentity(s, OwnLiteralKeys(platform), DistAndroidMerged);
    } else if platform == IosPlatform {
      MergeOwnFieldsIsIdentity(s, OwnLiteralKeys(platform), IosKeys);
    }
  }

  /**
   * The fields `init` rewrites: normalisation, platform coercion, then the
   * merge of a bound object that carries a truthy elevation. The bundled
   * re-import of the directive's own fields leaves the result as it is.
   */
  function InitData(variant: Variant, platform: Platform, shadow: JsVal, s: Style): (r: Style)
    ensures var c := Coerce(platform, s.(elevation := InitializeCommonData(shadow, s.elevation)));
            r == if Truthy(shadow) && Truthy(Get(shadow, "elevation")) then LoadFrom(variant, platform, c, shadow) else c
    ensures !(Truthy(shadow) && Truthy(Get(shadow, "elevation"))) ==> r.elevation == InitializeCommonData(shadow, s.elevation)
  {
    var s1 := s.(elevation := InitializeCommonData(shadow, s.elevation));
    var s2 := Coerce(platform, s1);
    var s3 := if Truthy(shadow) && Truthy(Get(shadow, "elevation")) then LoadFrom(variant, platform, s2, shadow) else s2;
    if variant == Dist && !Truthy(shadow) && Truthy(s3.elevation)
    then OwnLiteralMergeIsIdentity(platform, s3); LoadFrom(variant, platform, s3, ObjectOf(s3, OwnLiteralKeys(platform)))
    else s3
  }

  // ---------------------------------------------------------------------
  // Applying
  // ---------------------------------------------------------------------

  /** The early-return guard of `applyShadow`: whether the variant considers a shadow requested. */
  predicate WantsShadow(d: Directive)
  {
    match d.variant
    case Dist => Truthy(d.shadow) || Truthy(d.style.elevation)
    case Legacy => !(d.shadow == Null || d.shadow == Undefined || (d.shadow == Str("") && !Truthy(d.style.elevation)))
  }

  /**
   * `applyShadow`: nothing when no shadow is requested or Android is below
   * SDK 21; on iOS the shadow goes onto the wrapper view (nothing before it
   * exists), elsewhere onto the element's own view. Only that view changes.
   */
  function ApplyShadow(sc: Scene): (r: Scene)
    ensures r.env == sc.env
    ensures r.dir == sc.dir.(wrapper := r.dir.wrapper)
    ensures r.el == sc.el.(view := r.el.view)
    ensures !WantsShadow(sc.dir) ==> r == sc
    ensures sc.env.platform == AndroidPlatform && sc.env.sdk < Shadow.Lollipop ==> r == sc
    ensures sc.env.platform == IosPlatform && sc.dir.wrapper.None? ==> r == sc
    ensures sc.env.platform == IosPlatform ==> r.el == sc.el
    ensures sc.env.platform != IosPlatform ==> r.dir == sc.dir
    ensures WantsShadow(sc.dir) && sc.env.platform == IosPlatform && sc.dir.wrapper.Some? ==>
              r.dir.wrapper == Some(Shadow.Apply(sc.dir.wrapper.value, sc.dir.style, sc.env))
    ensures WantsShadow(sc.dir) && sc.env.platform != IosPlatform && !(sc.env.platform == AndroidPlatform && sc.env.sdk < Shadow.Lollipop) ==>
              r.el.view == Shadow.Apply(sc.el.view, sc.dir.style, sc.env)
  {
    var d := sc.dir;
    if !WantsShadow(d) then sc
    else if sc.env.platform == AndroidPlatform && sc.env.sdk < Shadow.Lollipop then sc
    else if sc.env.platform == IosPlatform then
      if d.wrapper.Some? then sc.(dir := d.(wrapper := Some(Shadow.Apply(d.wrapper.value, d.style, sc.env)))) else sc
    else sc.(el := sc.el.(view := Shadow.Apply(sc.el.view, d.style, sc.env)))
  }

  // ---------------------------------------------------------------------
  // Subscriptions
  // ---------------------------------------------------------------------

  /** How many times `x` occurs in `s`. */
  function Count(s: seq<Listener>, x: Listener): nat
  {
    multiset(s)[x]
  }

  /** The directive's own two subscriptions are present exactly once each while bound, and absent otherwise. */
  predicate Consistent(sc: Scene)
  {
    && Count(sc.el.listeners, LoadListener) == (if sc.dir.eventsBound then 1 else 0)
    && Count(sc.el.listeners, UnloadListener) == (if sc.dir.eventsBound then 1 else 0)
  }

  /** `removeWeakEventListener`: drops the first matching subscription, if any. */
  function RemoveFirst(s: seq<Listener>, x: Listener): (r: seq<Listener>)
    ensures multiset(r) == multiset(s) - multiset{x}
    ensures x !in s ==> r == s
  {
    if |s| == 0 then s
    else if s[0] == x then
      assert s == [s[0]] + s[1..];
      s[1..]
    else
      assert s == [s[0]] + s[1..];
      [s[0]] + RemoveFirst(s[1..], x)
  }

  /** The measure of the `init` / `bindEvents` / `load` recursion: the flags still to be raised. */
  function Pending(d: Directive): nat
  {
    (if d.initialized then 0 else 2) + (if d.eventsBound then 0 else 1)
  }

  /** The lifecycle fields no lifecycle step touches. */
  predicate Frame(sc: Scene, r: Scene)
  {
    && r.env == sc.env
    && r.dir.variant == sc.dir.variant
    && r.dir.shadow == sc.dir.shadow
    && r.dir.originalRedraw == sc.dir.originalRedraw
    && r.el.isLoaded == sc.el.isLoaded
  }

  /** `load` swaps the redraw hook on Android only. */
  predicate HookFrame(sc: Scene, r: Scene)
  {
    sc.env.platform != AndroidPlatform ==> r.el.redraw == sc.el.redraw && r.dir.previousRedraw == sc.dir.previousRedraw
  }

  /**
   * `init`: the first call normalises the fields, merges the bound object
   * and binds the events (which may load at once); every later call does
   * nothing.
   */
  function Init(sc: Scene): (r: Scene)
    ensures Frame(sc, r) && HookFrame(sc, r)
    ensures r.dir.initialized
    ensures sc.dir.initialized ==> r == sc
    ensures !sc.dir.initialized ==> r.dir.eventsBound
    ensures !sc.dir.initialized ==> r.dir.style == InitData(sc.dir.variant, sc.env.platform, sc.dir.shadow, sc.dir.style)
    ensures !sc.dir.initialized && !sc.dir.eventsBound ==> r.dir.loaded == (sc.dir.loaded || sc.el.isLoaded)
    ensures !sc.dir.initialized && sc.dir.eventsBound ==> r.el.listeners == sc.el.listeners && r.dir.loaded == sc.dir.loaded
    ensures !sc.dir.initialized && !sc.dir.eventsBound ==> r.el.listeners == sc.el.listeners + [LoadListener, UnloadListener]
    ensures !sc.dir.initialized && !sc.dir.eventsBound && sc.el.isLoaded && sc.env.platform == AndroidPlatform ==>
              r.el.redraw == Some(ShadowPatch) && r.dir.previousRedraw == sc.el.redraw
    ensures !sc.dir.initialized && (sc.dir.eventsBound || !sc.el.isLoaded) ==>
              && r.el.view == sc.el.view && r.el.redraw == sc.el.redraw
              && r.dir.wrapper == sc.dir.wrapper && r.dir.previousRedraw == sc.dir.previousRedraw
    ensures !sc.dir.initialized && !sc.dir.eventsBound && sc.el.isLoaded ==>
              r == Load(sc.(dir := sc.dir.(initialized := true, eventsBound := true,
                                           style := InitData(sc.dir.variant, sc.env.platform, sc.dir.shadow, sc.dir.style)),
                            el := sc.el.(listeners := sc.el.listeners + [LoadListener, UnloadListener])))
    ensures Consistent(sc) ==> Consistent(r)
    decreases Pending(sc.dir), 1
  {
    if sc.dir.initialized then sc
    else
      var d := sc.dir;
      var style := InitData(d.variant, sc.env.platform, d.shadow, d.style);
      BindEvents(sc.(dir := d.(initialized := true, style := style)))
  }

  /**
   * `bindEvents`: subscribes `load` and `unload` once, and loads at once when
   * the view is already loaded.
   */
  function BindEvents(sc: Scene): (r: Scene)
    ensures Frame(sc, r) && HookFrame(sc, r)
    ensures r.dir.eventsBound
    ensures sc.dir.eventsBound ==> r == sc
    ensures !sc.dir.eventsBound ==> r.dir.loaded == (sc.dir.loaded || sc.el.isLoaded)
    ensures !sc.dir.eventsBound && !sc.el.isLoaded ==>
              r == sc.(dir := sc.dir.(eventsBound := true), el := sc.el.(listeners := sc.el.listeners + [LoadListener, UnloadListener]))
    ensures !sc.dir.eventsBound && sc.el.isLoaded ==>
              r == Load(sc.(dir := sc.dir.(eventsBound := true), el := sc.el.(listeners := sc.el.listeners + [LoadListener, UnloadListener])))
    ensures sc.dir.initialized ==> r.dir.initialized && r.dir.style == sc.dir.style
    ensures !sc.dir.eventsBound && sc.dir.initialized ==> r.el.listeners == sc.el.listeners + [LoadListener, UnloadListener]
    ensures !sc.dir.eventsBound && sc.dir.initialized && sc.el.isLoaded && sc.env.platform == AndroidPlatform ==>
              r.el.redraw == Some(ShadowPatch) && r.dir.previousRedraw == sc.el.redraw
    ensures Consistent(sc) ==> Consistent(r)
    decreases Pending(sc.dir), 0
  {
    if sc.dir.eventsBound then sc
    else
      var bound := sc.(dir := sc.dir.(eventsBound := true),
                       el := sc.el.(listeners := sc.el.listeners + [LoadListener, UnloadListener]));
      if bound.el.isLoaded then Load(bound) else bound
  }

  /** Saves the current redraw hook and installs the directive's patch in its place. */
  function Patch(sc: Scene): (r: Scene)
    ensures r.el.redraw == Some(ShadowPatch) && r.dir.previousRedraw == sc.el.redraw
    ensures r == sc.(dir := r.dir, el := r.el)
    ensures r.dir == sc.dir.(previousRedraw := r.dir.previousRedraw)
    ensures r.el == sc.el.(redraw := r.el.redraw)
  {
    sc.(dir := sc.dir.(previousRedraw := sc.el.redraw), el := sc.el.(redraw := Some(ShadowPatch)))
  }

  /**
   * `load`: marks the directive loaded (the older variant initialises
   * first when it has not been), applies the shadow, and on Android
   * patches the redraw hook, saving whatever was there.
   */
  function Load(sc: Scene): (r: Scene)
    ensures Frame(sc, r) && HookFrame(sc, r)
    ensures r.dir.loaded
    ensures r.dir.initialized == (sc.dir.initialized || sc.dir.variant == Legacy)
    ensures sc.dir.initialized || sc.dir.variant == Dist ==>
              r.dir.style == sc.dir.style && r.dir.eventsBound == sc.dir.eventsBound && r.el.listeners == sc.el.listeners
    ensures sc.env.platform == AndroidPlatform ==> r.el.redraw == Some(ShadowPatch)
    ensures sc.env.platform == AndroidPlatform && (sc.dir.initialized || sc.dir.variant == Dist) ==>
              r.dir.previousRedraw == sc.el.redraw
    ensures sc.dir.initialized || sc.dir.variant == Dist ==>
              var shown := ApplyShadow(sc.(dir := sc.dir.(loaded := true)));
              r.el.view == shown.el.view && r.dir.wrapper == shown.dir.wrapper
    ensures !sc.dir.initialized && sc.dir.variant == Legacy ==>
              var shown := ApplyShadow(Init(sc.(dir := sc.dir.(loaded := true))));
              r.el.view == shown.el.view && r.dir.wrapper == shown.dir.wrapper
    ensures Consistent(sc) ==> Consistent(r)
    decreases Pending(sc.dir), 2
  {
    var marked := sc.(dir := sc.dir.(loaded := true));
    var ready := if marked.dir.variant == Legacy && !marked.dir.initialized then Init(marked) else marked;
    var applied := ApplyShadow(ready);
    if applied.env.platform == AndroidPlatform then Patch(applied) else applied
  }

  /** `unload`: clears `loaded` and on Android puts back the redraw hook seen at construction. */
  function Unload(sc: Scene): (r: Scene)
    ensures Frame(sc, r) && HookFrame(sc, r)
    ensures !r.dir.loaded
    ensures r.dir == sc.dir.(loaded := false)
    ensures r.el == sc.el.(redraw := r.el.redraw)
    ensures sc.env.platform == AndroidPlatform ==> r.el.redraw == sc.dir.originalRedraw
    ensures Consistent(sc) ==> Consistent(r)
  {
    var unloaded := sc.(dir := sc.dir.(loaded := false));
    if sc.env.platform == AndroidPlatform then unloaded.(el := unloaded.el.(redraw := sc.dir.originalRedraw)) else unloaded
  }

  /** `unbindEvents`: drops the two subscriptions once each when bound. */
  function UnbindEvents(sc: Scene): (r: Scene)
    ensures Frame(sc, r) && HookFrame(sc, r)
    ensures !r.dir.eventsBound
    ensures r.dir == sc.dir.(eventsBound := false)
    ensures r.el == sc.el.(listeners := r.el.listeners)
    ensures !sc.dir.eventsBound ==> r == sc
    ensures sc.dir.eventsBound ==>
              multiset(r.el.listeners) == multiset(sc.el.listeners) - multiset{LoadListener, UnloadListener}
    ensures Consistent(sc) ==> Consistent(r)
  {
    if !sc.dir.eventsBound then sc
    else
      var ls := RemoveFirst(RemoveFirst(sc.el.listeners, LoadListener), UnloadListener);
      sc.(dir := sc.dir.(eventsBound := false), el := sc.el.(listeners := ls))
  }

  /** `destroy`: when initialised, unloads, unbinds and clears `initialized`; otherwise nothing. */
  function Destroy(sc: Scene): (r: Scene)
    ensures Frame(sc, r) && HookFrame(sc, r)
    ensures !r.dir.initialized
    ensures !sc.dir.initialized ==> r == sc
    ensures sc.dir.initialized ==> !r.dir.loaded && !r.dir.eventsBound
    ensures sc.dir.initialized && sc.dir.eventsBound ==>
              multiset(r.el.listeners) == multiset(sc.el.listeners) - multiset{LoadListener, UnloadListener}
    ensures sc.dir.initialized && sc.env.platform == AndroidPlatform ==> r.el.redraw == sc.dir.originalRedraw
    ensures r.dir.style == sc.dir.style
    ensures sc.dir.initialized ==>
              && r.dir == sc.dir.(loaded := false, eventsBound := false, initialized := false)
              && r.el == sc.el.(redraw := r.el.redraw, listeners := r.el.listeners)
    ensures Consistent(sc) ==> Consistent(r)
  {
    if !sc.dir.initialized then sc
    else
      var r := UnbindEvents(Unload(sc));
      r.(dir := r.dir.(initialized := false))
  }

  // ---------------------------------------------------------------------
  // Updates
  // ---------------------------------------------------------------------

  /**
   * Bundled `onUpdate`: nothing unless loaded and the new value is truthy;
   * a string or number replaces `shadow` and `elevation` as they are (not
   * parsed); an object with a truthy `elevation` replaces both and merges
   * its fields; in every acting case the shadow is then re-applied.
   */
  function OnUpdate(sc: Scene, value: JsVal): (r: Scene)
    ensures r.env == sc.env && r.el.listeners == sc.el.listeners && r.el.redraw == sc.el.redraw
    ensures r.dir.loaded == sc.dir.loaded && r.dir.initialized == sc.dir.initialized && r.dir.eventsBound == sc.dir.eventsBound
    ensures !(sc.dir.loaded && Truthy(value)) ==> r == sc
    ensures sc.dir.loaded && Truthy(value) && IsNumberish(value) ==>
              r.dir.shadow == value && r.dir.style == sc.dir.style.(elevation := value)
    ensures sc.dir.loaded && value.Obj? && Truthy(Get(value, "elevation")) ==>
              && r.dir.shadow == value
              && r.dir.style == LoadFrom(sc.dir.variant, sc.env.platform, sc.dir.style.(elevation := Get(value, "elevation")), value)
    ensures sc.dir.loaded && Truthy(value) && !IsNumberish(value) && !(value.Obj? && Truthy(Get(value, "elevation"))) ==>
              r == ApplyShadow(sc)
    ensures sc.dir.loaded && Truthy(value) ==> r == ApplyShadow(sc.(dir := sc.dir.(shadow := r.dir.shadow, style := r.dir.style)))
    ensures Consistent(sc) ==> Consistent(r)
  {
    if !(sc.dir.loaded && Truthy(value)) then sc
    else
      var d := sc.dir;
      var next :=
        if IsNumberish(value) then d.(shadow := value, style := d.style.(elevation := value))
        else if value.Obj? && Truthy(Get(value, "elevation")) then
          d.(shadow := value, style := LoadFrom(d.variant, sc.env.platform, d.style.(elevation := Get(value, "elevation")), value))
        else d;
      ApplyShadow(sc.(dir := next))
  }

  /** The property names whose presence makes the older `onChanges` act, as the source lists them. */
  const WatchedNames: seq<string> := [
    "shadow", "elevation", "pressedElevation", "shape", "bgcolor", "cornerRadius",
    "pressedTranslationZ", "forcePressAnimation", "translationZ", "maskToBounds",
    "shadowColor", "shadowOffset", "shadowOpacity", "shadowRadius", "rasterize", "useShadowMap"]

  predicate Watched(changes: JsVal)
  {
    exists i :: 0 <= i < |WatchedNames| && Has(changes, WatchedNames[i])
  }

  /** What a call can throw: reading a property of `undefined` or `null`. */
  datatype Thrown = TypeError

  /** `undefined` or `null`, whose property reads throw. */
  predicate Nullish(v: JsVal)
  {
    v.Undefined? || v.Null?
  }

  /** Whether a change set's new `shadow` has a truthy `elevation`, so `onChanges` merges the current `shadow`. */
  predicate MergesCurrentShadow(changes: JsVal)
  {
    Truthy(Get(changes, "shadow")) && Truthy(Get(Get(changes, "shadow"), "elevation"))
  }

  /**
   * Older `onChanges` (the bundled class has none): acts only when loaded
   * and the change set has a watched key; a numeric `shadow` without an
   * `elevation` key becomes the elevation; when the new `shadow` has a
   * truthy `elevation`, the directive's current (not the new) `shadow`
   * object is merged in, and on Android and iOS that merge reads the
   * current `shadow`'s fields, so a missing one throws before anything
   * changes; then the shadow is re-applied. `shadow` itself is never
   * replaced.
   */
  function OnChanges(sc: Scene, changes: JsVal): (r: Result<Scene, Thrown>)
    requires sc.dir.variant == Legacy
    ensures r.Failure? <==>
              && sc.dir.loaded && Truthy(changes) && Watched(changes) && MergesCurrentShadow(changes)
              && sc.env.platform != OtherPlatform && Nullish(sc.dir.shadow)
    ensures r.Success? ==>
              && r.value.env == sc.env && r.value.el.listeners == sc.el.listeners && r.value.el.redraw == sc.el.redraw
              && r.value.dir.shadow == sc.dir.shadow && r.value.dir.loaded == sc.dir.loaded
    ensures !(sc.dir.loaded && Truthy(changes) && Watched(changes)) ==> r == Success(sc)
    ensures sc.dir.loaded && Watched(changes) && r.Success? ==>
              var numeric := Has(changes, "shadow") && !Has(changes, "elevation") && TypeOf(Get(changes, "shadow")) == NumberType;
              var e := if numeric then Get(changes, "shadow") else sc.dir.style.elevation;
              r.value.dir.style == if MergesCurrentShadow(changes)
                                   then LoadFrom(sc.dir.variant, sc.env.platform, sc.dir.style.(elevation := e), sc.dir.shadow)
                                   else sc.dir.style.(elevation := e)
    ensures sc.dir.loaded && Truthy(changes) && Watched(changes) && r.Success? ==>
              r.value == ApplyShadow(sc.(dir := sc.dir.(style := r.value.dir.style)))
    ensures Consistent(sc) && r.Success? ==> Consistent(r.value)
  {
    if !(sc.dir.loaded && Truthy(changes) && Watched(changes)) then Success(sc)
    else if MergesCurrentShadow(changes) && sc.env.platform != OtherPlatform && Nullish(sc.dir.shadow) then Failure(TypeError)
    else
      var d := sc.dir;
      var elevation :=
        if Has(changes, "shadow") && !Has(changes, "elevation") && TypeOf(Get(changes, "shadow")) == NumberType
        then Get(changes, "shadow") else d.style.elevation;
      var style := d.style.(elevation := elevation);
      var merged := if MergesCurrentShadow(changes) then LoadFrom(d.variant, sc.env.platform, style, d.shadow) else style;
      Success(ApplyShadow(sc.(dir := d.(style := merged))))
  }

  /**
   * `addIOSWrapper`: the bundled directive on iOS wraps the element in a
   * fresh layout view and applies to that from then on; it does not apply
   * the shadow itself. The older variant's version does nothing.
   */
  function AddIosWrapper(sc: Scene, wrapperView: TnsView): (r: Scene)
    ensures r == sc.(dir := sc.dir.(wrapper := r.dir.wrapper))
    ensures sc.dir.variant == Dist && sc.env.platform == IosPlatform ==> r.dir.wrapper == Some(wrapperView)
    ensures !(sc.dir.variant == Dist && sc.env.platform == IosPlatform) ==> r == sc
  {
    if sc.dir.variant == Dist && sc.env.platform == IosPlatform then sc.(dir := sc.dir.(wrapper := Some(wrapperView))) else sc
  }

  // ---------------------------------------------------------------------
  // Events and the redraw chain
  // ---------------------------------------------------------------------

  function Subscriber(ev: Event): Listener
  {
    if ev == Loaded then LoadListener else UnloadListener
  }

  /** Runs the directive's handler for `ev` `n` times. */
  function RunHandler(sc: Scene, ev: Event, n: nat): (r: Scene)
    ensures r.dir.variant == sc.dir.variant && r.el.isLoaded == sc.el.isLoaded
    ensures n == 0 ==> r == sc
    ensures Consistent(sc) ==> Consistent(r)
    decreases n
  {
    if n == 0 then sc
    else
      var once := if ev == Loaded then Load(sc) else Unload(sc);
      RunHandler(once, ev, n - 1)
  }

  /** The view emits `ev`: its loaded flag follows, and each subscription of the directive runs its handler. */
  function Fire(sc: Scene, ev: Event): (r: Scene)
    ensures r.el.isLoaded == (ev == Loaded)
    ensures Count(sc.el.listeners, Subscriber(ev)) == 0 ==> r == sc.(el := sc.el.(isLoaded := ev == Loaded))
    ensures Count(sc.el.listeners, Subscriber(ev)) == 1 ==>
              var flagged := sc.(el := sc.el.(isLoaded := ev == Loaded));
              r == if ev == Loaded then Load(flagged) else Unload(flagged)
    ensures Consistent(sc) ==> Consistent(r)
  {
    var flagged := sc.(el := sc.el.(isLoaded := ev == Loaded));
    RunHandler(flagged, ev, Count(sc.el.listeners, Subscriber(ev)))
  }

  /** What a call to the redraw slot runs. */
  datatype Step = RanOriginal | RanForeign(id: nat) | ReappliedShadow

  /** Why a call to the redraw slot cannot complete. */
  datatype Fault = NotCallable | UnboundedRecursion

  /** Running one hook that is not the directive's patch. */
  function RunHook(h: Hook): (r: Result<seq<Step>, Fault>)
  {
    match h
    case OriginalRedraw => Success([RanOriginal])
    case ForeignRedraw(id) => Success([RanForeign(id)])
    case ShadowPatch => Failure(UnboundedRecursion)
  }

  /**
   * Calling the redraw slot: the patch calls the saved previous hook and
   * then re-applies the shadow. A missing hook cannot be called, and a
   * patch whose saved predecessor is the patch itself calls itself without
   * end.
   */
  function RedrawTrace(slot: Option<Hook>, previous: Option<Hook>): (r: Result<seq<Step>, Fault>)
    ensures slot.None? ==> r == Failure(NotCallable)
    ensures slot == Some(ShadowPatch) && previous.None? ==> r == Failure(NotCallable)
    ensures slot == Some(ShadowPatch) && previous == Some(ShadowPatch) ==> r == Failure(UnboundedRecursion)
    ensures slot == Some(ShadowPatch) && r.Success? ==> |r.value| == 2 && r.value[1] == ReappliedShadow
    ensures slot.Some? && slot != Some(ShadowPatch) ==> r.Success? && ReappliedShadow !in r.value
    ensures slot == Some(ShadowPatch) && previous == Some(OriginalRedraw) ==> r == Success([RanOriginal, ReappliedShadow])
    ensures slot == Some(ShadowPatch) && previous.Some? && previous.value.ForeignRedraw? ==>
              r == Success([RanForeign(previous.value.id), ReappliedShadow])
    ensures slot == Some(OriginalRedraw) ==> r == Success([RanOriginal])
    ensures slot.Some? && slot.value.ForeignRedraw? ==> r == Success([RanForeign(slot.value.id)])
  {
    match slot
    case None => Failure(NotCallable)
    case Some(ShadowPatch) =>
      (match previous
       case None => Failure(NotCallable)
       case Some(h) =>
         match RunHook(h)
         case Failure(f) => Failure(f)
         case Success(steps) =>
           assert |steps| == 1 ==> steps + [ReappliedShadow] == [steps[0], ReappliedShadow];
           Success(steps + [ReappliedShadow]))
    case Some(h) => RunHook(h)
  }

  /** The redraw the framework would run on this element now. */
  function Redraw(sc: Scene): Result<seq<Step>, Fault>
  {
    RedrawTrace(sc.el.redraw, sc.dir.previousRedraw)
  }
}

=== FILE: lifecycle_properties.dfy ===
/**
 * Properties of the directive lifecycle that relate several calls: the
 * shorthand normalisation, idempotence of `init`, `bindEvents` and
 * `destroy`, the redraw-hook chain across `load`/`unload`, the update
 * filters of both variants, and the subscription invariant over any
 * sequence of lifecycle calls.
 */
module LifecycleProperties {
  import opened JsValues
  import opened JsNumbers
  import opened Wrappers
  import opened StyleRecord
  import opened NativeViews
  import opened Lifecycle

  /** A directive freshly bound to an element. */
  function Fresh(variant: Variant, env: Env, el: Element, value: JsVal): (sc: Scene)
    ensures sc.env == env && sc.el == el && !sc.dir.initialized && !sc.dir.eventsBound && !sc.dir.loaded
    ensures Count(el.listeners, LoadListener) == 0 && Count(el.listeners, UnloadListener) == 0 ==> Consistent(sc)
  {
    Scene(env, Construct(variant, env, el, value), el)
  }

  // ---------------------------------------------------------------------
  // Intake and normalisation
  // ---------------------------------------------------------------------

  /**
   * The bundled shorthand: binding the number `n` or its decimal spelling
   * gives the same elevation `n` after `init`, on every platform.
   */
  lemma ShorthandInitAgrees(env: Env, el: Element, n: int)
    requires n != 0
    ensures Init(Fresh(Dist, env, el, IntNum(n))).dir.style.elevation == IntNum(n)
    ensures Init(Fresh(Dist, env, el, Str(IntString(n)))).dir.style.elevation == IntNum(n)
  {
    ParseIntOfIntegral(n);
    ShorthandInitElevation(env, el, IntNum(n));
    ParseIntRoundTrip(n);
    ShorthandInitElevation(env, el, Str(IntString(n)));
  }

  /** A truthy string or number bound to the bundled directive has its `parseInt` as elevation after `init`. */
  lemma ShorthandInitElevation(env: Env, el: Element, v: JsVal)
    requires Truthy(v) && IsNumberish(v)
    ensures Init(Fresh(Dist, env, el, v)).dir.style.elevation == Num(ParseIntOf(v))
  {
    var sc := Fresh(Dist, env, el, v);
    assert sc.dir.shadow == v && Field(sc.dir.style, Elevation) == v;
    InitDataOfPrimitive(Dist, env.platform, v, sc.dir.style);
  }

  /**
   * A shorthand that does not parse is NaN after the bundled `init`, not 2:
   * the constructor sets elevation too, so the "fill a falsy elevation"
   * branch never runs (see `ShorthandFallbackIsTwo` for when it does).
   */
  lemma ShorthandGarbageIsNaN(env: Env, el: Element)
    ensures Init(Fresh(Dist, env, el, Str("abc"))).dir.style.elevation == Num(NaN)
  {
    GarbageParsesToNaN();
    ShorthandInitElevation(env, el, Str("abc"));
  }

  lemma GarbageParsesToNaN()
    ensures ParseIntOf(Str("abc")) == NaN
  {
    assert LeadingSpaces("abc") == 0;
    assert SignOf("abc") == (false, 0);
    assert LeadingDigits("abc") == 0;
  }

  /**
   * When the elevation is falsy, `initializeCommonData` takes it from the
   * shorthand, and an unparsable or zero shorthand then falls back to 2.
   */
  lemma ShorthandFallbackIsTwo()
    ensures InitializeCommonData(Str("abc"), Undefined) == IntNum(2)
    ensures InitializeCommonData(IntNum(0), Undefined) == IntNum(2)
  {
    GarbageParsesToNaN();
  }

  /** With a primitive `shadow`, `init` settles the elevation by `initializeCommonData` alone. */
  lemma InitDataOfPrimitive(variant: Variant, platform: Platform, shadow: JsVal, s: Style)
    requires !shadow.Obj?
    ensures InitData(variant, platform, shadow, s).elevation == InitializeCommonData(shadow, s.elevation)
  {
    assert !Truthy(Get(shadow, "elevation"));
  }

  /**
   * On Android and iOS, `init` merges the bound object back in after
   * coercing: every merged field the object gives truthily ends up as the
   * object's own value, so the string coercion has no lasting effect on it.
   */
  lemma InitKeepsTruthyObjectFields(variant: Variant, platform: Platform, shadow: JsVal, s: Style, k: Key)
    requires platform != OtherPlatform && shadow.Obj? && Truthy(Get(shadow, "elevation"))
    requires k in (if platform == AndroidPlatform then AndroidMerged(variant) else IosKeys)
    requires Truthy(Get(shadow, Name(k)))
    ensures Field(InitData(variant, platform, shadow, s), k) == Get(shadow, Name(k))
  {
  }

  /**
   * On Android, the bundled `init` re-imports the bound object after
   * coercing, so non-empty strings come back raw: `elevation: "4"` and
   * `cornerRadius: "8"` stay strings.
   */
  lemma InitReimportsRawStrings(env: Env, el: Element)
    requires env.platform == AndroidPlatform
    ensures var value := Obj(map["elevation" := Str("4"), "cornerRadius" := Str("8")]);
            var sc := Init(Fresh(Dist, env, el, value));
            Field(sc.dir.style, Elevation) == Str("4") && Field(sc.dir.style, CornerRadius) == Str("8")
  {
    var value := Obj(map["elevation" := Str("4"), "cornerRadius" := Str("8")]);
    var sc := Fresh(Dist, env, el, value);
    RawPairFields();
    assert sc.dir.shadow == value;
    InitDataKeepsRawPair(Dist, value, sc.dir.style, Str("4"), Str("8"));
  }

  lemma RawPairFields()
    ensures var value := Obj(map["elevation" := Str("4"), "cornerRadius" := Str("8")]);
            Get(value, "elevation") == Str("4") && Get(value, "cornerRadius") == Str("8")
  {
  }

  /** On Android, truthy `elevation` and `cornerRadius` of the bound object survive `init`'s data pass as they are. */
  lemma InitDataKeepsRawPair(variant: Variant, shadow: JsVal, s: Style, e: JsVal, c: JsVal)
    requires shadow.Obj? && Get(shadow, "elevation") == e && Get(shadow, "cornerRadius") == c
    requires Truthy(e) && Truthy(c)
    ensures Field(InitData(variant, AndroidPlatform, shadow, s), Elevation) == e
    ensures Field(InitData(variant, AndroidPlatform, shadow, s), CornerRadius) == c
  {
    assert Name(CornerRadius) == "cornerRadius" && Name(Elevation) == "elevation";
    assert Elevation in AndroidMerged(variant) && CornerRadius in AndroidMerged(variant);
    InitKeepsTruthyObjectFields(variant, AndroidPlatform, shadow, s, Elevation);
    InitKeepsTruthyObjectFields(variant, AndroidPlatform, shadow, s, CornerRadius);
  }

  /** `InitKeepsTruthyObjectFields` seen through a first `init` call. */
  lemma InitTakesTruthyObjectField(sc: Scene, k: Key)
    requires !sc.dir.initialized && sc.env.platform == AndroidPlatform
    requires sc.dir.shadow.Obj? && Truthy(Get(sc.dir.shadow, "elevation"))
    requires k in AndroidMerged(sc.dir.variant) && Truthy(Get(sc.dir.shadow, Name(k)))
    ensures Field(Init(sc).dir.style, k) == Get(sc.dir.shadow, Name(k))
  {
    InitKeepsTruthyObjectFields(sc.dir.variant, sc.env.platform, sc.dir.shadow, sc.dir.style, k);
  }

  /** The older directive reads `shadow` from the bound object, so a bare number requests no shadow at all. */
  lemma LegacyShorthandIgnored(env: Env, el: Element, v: JsVal)
    requires IsNumberish(v)
    ensures !WantsShadow(Fresh(Legacy, env, el, v).dir)
  {
  }

  /** The older `loadFromAndroidData` leaves the pressed fields, the press flag and every iOS field alone. */
  lemma LegacyAndroidMergeFrame(s: Style, data: JsVal)
    ensures var r := LoadFrom(Legacy, AndroidPlatform, s, data);
            && r.pressedElevation == s.pressedElevation
            && r.pressedTranslationZ == s.pressedTranslationZ
            && r.forcePressAnimation == s.forcePressAnimation
            && forall k :: k in IosKeys ==> Field(r, k) == Field(s, k)
  {
    var r := LoadFrom(Legacy, AndroidPlatform, s, data);
    assert r == Merge(s, data, LegacyAndroidMerged);
    forall k | k !in LegacyAndroidMerged ensures Field(r, k) == Field(s, k) {
    }
    LegacyAndroidMergedKeys();
    assert Field(r, PressedElevation) == Field(s, PressedElevation);
    assert Field(r, PressedTranslationZ) == Field(s, PressedTranslationZ);
    assert Field(r, ForcePressAnimation) == Field(s, ForcePressAnimation);
  }

  /** The older Android merge lists neither the pressed fields, the press flag nor any iOS field. */
  lemma LegacyAndroidMergedKeys()
    ensures PressedElevation !in LegacyAndroidMerged && PressedTranslationZ !in LegacyAndroidMerged
    ensures ForcePressAnimation !in LegacyAndroidMerged
    ensures forall k :: k in IosKeys ==> k !in LegacyAndroidMerged
  {
  }

  // ---------------------------------------------------------------------
  // init, bindEvents, destroy
  // ---------------------------------------------------------------------

  /** `init` runs its body at most once. */
  lemma InitIdempotent(sc: Scene)
    ensures Init(Init(sc)) == Init(sc)
  {
  }

  /** However often `init` and `bindEvents` run, each handler is subscribed once. */
  lemma SubscribedOnce(sc: Scene)
    requires Consistent(sc)
    ensures Count(BindEvents(Init(Init(sc))).el.listeners, LoadListener) == 1
    ensures Count(BindEvents(Init(Init(sc))).el.listeners, UnloadListener) == 1
  {
  }

  /** `destroy` is idempotent. */
  lemma DestroyIdempotent(sc: Scene)
    ensures Destroy(Destroy(sc)) == Destroy(sc)
  {
  }

  /**
   * `init` followed by `destroy` takes the element back to its
   * subscriptions and, on Android, to the redraw hook seen at construction.
   */
  lemma InitDestroyRestoresElement(sc: Scene)
    requires !sc.dir.initialized && !sc.dir.eventsBound
    ensures multiset(Destroy(Init(sc)).el.listeners) == multiset(sc.el.listeners)
    ensures sc.env.platform == AndroidPlatform ==> Destroy(Init(sc)).el.redraw == sc.dir.originalRedraw
    ensures !Destroy(Init(sc)).dir.loaded && !Destroy(Init(sc)).dir.eventsBound
  {
    var once := Init(sc);
    assert once.el.listeners == sc.el.listeners + [LoadListener, UnloadListener];
    DestroyDropsOwnSubscriptions(once, sc.el.listeners);
  }

  /** `destroy` on an initialised, bound scene whose view holds `others` plus the two subscriptions leaves `others`. */
  lemma {:induction false} DestroyDropsOwnSubscriptions(sc: Scene, others: seq<Listener>)
    requires sc.dir.initialized && sc.dir.eventsBound
    requires sc.el.listeners == others + [LoadListener, UnloadListener]
    ensures multiset(Destroy(sc).el.listeners) == multiset(others)
  {
    assert multiset(sc.el.listeners) == multiset(others) + multiset{LoadListener, UnloadListener};
  }

  /** Once destroyed, a `loaded` event from the view no longer reaches the directive. */
  lemma DestroyedIgnoresLoadedEvent(sc: Scene)
    requires Consistent(sc) && (sc.dir.initialized || !sc.dir.eventsBound)
    ensures Fire(Destroy(sc), Loaded).dir == Destroy(sc).dir
  {
  }

  // ---------------------------------------------------------------------
  // The redraw hook
  // ---------------------------------------------------------------------

  /** After a load on Android, the redraw slot runs the patch chained to whatever the slot held before. */
  lemma RedrawAfterLoad(sc: Scene)
    requires sc.env.platform == AndroidPlatform && (sc.dir.initialized || sc.dir.variant == Dist)
    ensures Redraw(Load(sc)) == RedrawTrace(Some(ShadowPatch), sc.el.redraw)
  {
    var r := Load(sc);
    assert r.el.redraw == Some(ShadowPatch) && r.dir.previousRedraw == sc.el.redraw;
  }

  /** A foreign patch found at load time still runs, before the shadow is re-applied. */
  lemma {:induction false} LoadChainsForeignPatch(sc: Scene, id: nat)
    requires sc.env.platform == AndroidPlatform && (sc.dir.initialized || sc.dir.variant == Dist)
    requires sc.el.redraw == Some(ForeignRedraw(id))
    ensures Redraw(Load(sc)) == Success([RanForeign(id), ReappliedShadow])
  {
    RedrawAfterLoad(sc);
    assert [RanForeign(id)] + [ReappliedShadow] == [RanForeign(id), ReappliedShadow];
  }

  /**
   * Two loads without an unload between them save the patch as its own
   * predecessor: the next redraw calls itself without end.
   */
  lemma {:induction false} DoubleLoadRecurses(sc: Scene)
    requires sc.env.platform == AndroidPlatform
    ensures Redraw(Load(Load(sc))) == Failure(UnboundedRecursion)
  {
    var once := Load(sc);
    assert once.dir.initialized || once.dir.variant == Dist;
    RedrawAfterLoad(once);
  }

  /** Load, unload, load: the restored hook is saved again and the patch chains to it once. */
  lemma {:induction false} LoadUnloadLoadChainsOnce(sc: Scene)
    requires sc.env.platform == AndroidPlatform && sc.dir.originalRedraw == Some(OriginalRedraw)
    ensures Redraw(Load(Unload(Load(sc)))) == Success([RanOriginal, ReappliedShadow])
  {
    var off := Unload(Load(sc));
    assert off.el.redraw == Some(OriginalRedraw);
    assert off.dir.initialized || off.dir.variant == Dist;
    RedrawAfterLoad(off);
    assert [RanOriginal] + [ReappliedShadow] == [RanOriginal, ReappliedShadow];
  }

  /** Unload always puts back the hook seen at construction, however many loads came before. */
  lemma UnloadRestoresOriginal(sc: Scene, n: nat)
    requires sc.env.platform == AndroidPlatform
    ensures Unload(LoadTimes(sc, n)).el.redraw == sc.dir.originalRedraw
  {
  }

  function LoadTimes(sc: Scene, n: nat): (r: Scene)
    ensures r.dir.originalRedraw == sc.dir.originalRedraw && r.env == sc.env
  {
    if n == 0 then sc else Load(LoadTimes(sc, n - 1))
  }

  /**
   * The older `load` on a directive that has not been initialised, on a
   * view that is already loaded, loads twice within the one call (through
   * `init` and `bindEvents`) and so leaves the patch chained to itself.
   */
  lemma LegacyEarlyLoadRecurses(sc: Scene)
    requires sc.dir.variant == Legacy && sc.env.platform == AndroidPlatform
    requires !sc.dir.initialized && !sc.dir.eventsBound && sc.el.isLoaded
    ensures Redraw(Load(sc)) == Failure(UnboundedRecursion)
  {
    var marked := sc.(dir := sc.dir.(loaded := true));
    var ready := Init(marked);
    assert ready.el.redraw == Some(ShadowPatch);
    var applied := ApplyShadow(ready);
    assert Load(sc) == Patch(applied);
  }

  // ---------------------------------------------------------------------
  // Updates
  // ---------------------------------------------------------------------

  /** The bundled `onUpdate` never touches `pressedElevation`, which its merge does not list. */
  lemma OnUpdateKeepsPressedElevation(sc: Scene, value: JsVal)
    requires sc.dir.variant == Dist
    ensures OnUpdate(sc, value).dir.style.pressedElevation == sc.dir.style.pressedElevation
  {
    if sc.dir.loaded && value.Obj? && Truthy(Get(value, "elevation")) {
      DistLoadKeepsPressedElevation(sc.env.platform, sc.dir.style.(elevation := Get(value, "elevation")), value);
    }
  }

  /** Neither bundled merge lists `pressedElevation`. */
  lemma DistLoadKeepsPressedElevation(platform: Platform, s: Style, data: JsVal)
    ensures LoadFrom(Dist, platform, s, data).pressedElevation == s.pressedElevation
  {
    assert PressedElevation !in DistAndroidMerged && PressedElevation !in IosKeys;
    assert Field(LoadFrom(Dist, platform, s, data), PressedElevation) == Field(s, PressedElevation);
  }

  /** A falsy incoming field keeps the value the directive had. */
  lemma OnUpdateKeepsOnFalsy(sc: Scene, value: JsVal, k: Key)
    requires sc.dir.loaded && value.Obj? && Truthy(Get(value, "elevation"))
    requires k != Elevation && !Truthy(Get(value, Name(k)))
    ensures Field(OnUpdate(sc, value).dir.style, k) == Field(sc.dir.style, k)
  {
    LoadKeepsFalsyField(sc.dir.variant, sc.env.platform, sc.dir.style, Get(value, "elevation"), value, k);
  }

  /** A merge after setting the elevation leaves every other field the data gives falsily as it was. */
  lemma LoadKeepsFalsyField(variant: Variant, platform: Platform, s: Style, e: JsVal, data: JsVal, k: Key)
    requires k != Elevation && !Truthy(Get(data, Name(k)))
    ensures Field(LoadFrom(variant, platform, s.(elevation := e), data), k) == Field(s, k)
  {
    assert Field(s.(elevation := e), k) == Field(s, k);
  }

  /** A string shorthand given to the bundled `onUpdate` is stored as it is, without `parseInt`. */
  lemma OnUpdateStoresShorthandRaw(sc: Scene, s: string)
    requires sc.dir.loaded && s != ""
    ensures OnUpdate(sc, Str(s)).dir.style.elevation == Str(s)
  {
  }

  /** A change to `useShadowPath` alone is not watched by the older `onChanges`. */
  lemma UseShadowPathChangeIgnored(sc: Scene, v: JsVal)
    requires sc.dir.variant == Legacy
    ensures OnChanges(sc, Obj(map["useShadowPath" := v])) == Success(sc)
  {
    UseShadowPathNotWatched(v);
  }

  lemma UseShadowPathNotWatched(v: JsVal)
    ensures !Watched(Obj(map["useShadowPath" := v]))
  {
    var changes := Obj(map["useShadowPath" := v]);
    forall i | 0 <= i < |WatchedNames| ensures !Has(changes, WatchedNames[i]) {
      assert WatchedNames[i] != "useShadowPath";
    }
  }

  /** The misspelt `useShadowMap` is watched: it re-applies with the fields as they were. */
  lemma UseShadowMapChangeReapplies(sc: Scene, v: JsVal)
    requires sc.dir.loaded && sc.dir.variant == Legacy
    ensures OnChanges(sc, Obj(map["useShadowMap" := v])) == Success(ApplyShadow(sc))
  {
    var changes := Obj(map["useShadowMap" := v]);
    assert Has(changes, WatchedNames[15]);
    assert sc.dir.style.(elevation := sc.dir.style.elevation) == sc.dir.style;
  }

  /** A numeric `shadow` change without an `elevation` key becomes the elevation; `shadow` itself is kept. */
  lemma NumericShadowChangeSetsElevation(sc: Scene, n: int)
    requires sc.dir.loaded && sc.dir.variant == Legacy
    ensures var r := OnChanges(sc, Obj(map["shadow" := IntNum(n)]));
            r.Success? && r.value.dir.style.elevation == IntNum(n) && r.value.dir.shadow == sc.dir.shadow
  {
    assert Has(Obj(map["shadow" := IntNum(n)]), WatchedNames[0]);
  }

  /**
   * A change whose new `shadow` is an object with a truthy `elevation`
   * merges the directive's current (not the new) `shadow` object, and
   * throws instead when on Android or iOS there is no current one.
   */
  lemma OnChangesMergesCurrentShadow(sc: Scene, changes: JsVal)
    requires sc.dir.loaded && sc.dir.variant == Legacy && Has(changes, "shadow") && !Has(changes, "elevation")
    requires Get(changes, "shadow").Obj? && Truthy(Get(Get(changes, "shadow"), "elevation"))
    ensures OnChanges(sc, changes).Failure? <==> sc.env.platform != OtherPlatform && Nullish(sc.dir.shadow)
    ensures OnChanges(sc, changes).Success? ==>
              OnChanges(sc, changes).value.dir.style == LoadFrom(sc.dir.variant, sc.env.platform, sc.dir.style, sc.dir.shadow)
  {
    assert Has(changes, WatchedNames[0]);
    assert sc.dir.style.(elevation := sc.dir.style.elevation) == sc.dir.style;
  }

  /**
   * The older `onChanges` merges the directive's current `shadow` object,
   * not the new one: a new `bgcolor` is not taken up.
   */
  lemma OnChangesMergesOldShadow(sc: Scene)
    requires sc.dir.loaded && sc.env.platform == AndroidPlatform && sc.dir.variant == Legacy
    requires sc.dir.shadow == Obj(map["elevation" := IntNum(3)])
    ensures var incoming := Obj(map["elevation" := IntNum(5), "bgcolor" := Str("#FF0000")]);
            var r := OnChanges(sc, Obj(map["shadow" := incoming]));
            r.Success? && r.value.dir.style.bgcolor == sc.dir.style.bgcolor && r.value.dir.style.elevation == IntNum(3)
  {
    var incoming := Obj(map["elevation" := IntNum(5), "bgcolor" := Str("#FF0000")]);
    var changes := Obj(map["shadow" := incoming]);
    assert Get(changes, "shadow") == incoming && !Has(changes, "elevation");
    assert Get(incoming, "elevation") == IntNum(5);
    OnChangesMergesCurrentShadow(sc, changes);
    LegacyMergeOfElevationOnly(sc.dir.style);
  }

  /**
   * An older directive bound without a `shadow` (a falsy value, or an
   * object with no `shadow` key) throws on Android when a change brings a
   * `shadow` with a truthy `elevation`: the merge reads `undefined.elevation`.
   */
  lemma OnChangesThrowsWithoutShadow(env: Env, el: Element)
    requires env.platform == AndroidPlatform
    ensures var sc := Fresh(Legacy, env, el, Obj(map["elevation" := IntNum(3)]));
            var loaded := sc.(dir := sc.dir.(loaded := true));
            OnChanges(loaded, Obj(map["shadow" := Obj(map["elevation" := IntNum(5)])])) == Failure(TypeError)
  {
    var value := Obj(map["elevation" := IntNum(3)]);
    var changes := Obj(map["shadow" := Obj(map["elevation" := IntNum(5)])]);
    assert Get(value, "shadow") == Undefined;
    assert Has(changes, WatchedNames[0]);
    assert MergesCurrentShadow(changes);
  }

  /** Merging `{elevation: 3}` on Android (older variant) sets the elevation and leaves `bgcolor` alone. */
  lemma LegacyMergeOfElevationOnly(s: Style)
    ensures var merged := LoadFrom(Legacy, AndroidPlatform, s, Obj(map["elevation" := IntNum(3)]));
            merged.bgcolor == s.bgcolor && merged.elevation == IntNum(3)
  {
    var data := Obj(map["elevation" := IntNum(3)]);
    var merged := Merge(s, data, LegacyAndroidMerged);
    assert Get(data, Name(BgColor)) == Undefined;
    assert Field(merged, BgColor) == Field(s, BgColor);
    assert Get(data, Name(Elevation)) == IntNum(3);
    assert Field(merged, Elevation) == IntNum(3);
  }

  // ---------------------------------------------------------------------
  // The subscription invariant over any sequence of calls
  // ---------------------------------------------------------------------

  /**
   * A public call on the directive or an event from its view. `onUpdate`
   * exists on the bundled variant only and `onChanges` on the older one;
   * a call to the other variant's method, or one that throws, leaves the
   * directive as it was.
   */
  datatype Call =
    | InitCall
    | BindCall
    | UnbindCall
    | LoadCall
    | UnloadCall
    | DestroyCall
    | UpdateCall(value: JsVal)
    | ChangesCall(changes: JsVal)
    | WrapCall(wrapper: TnsView)
    | EventCall(ev: Event)

  function Step(sc: Scene, c: Call): Scene
  {
    match c
    case InitCall => Init(sc)
    case BindCall => BindEvents(sc)
    case UnbindCall => UnbindEvents(sc)
    case LoadCall => Load(sc)
    case UnloadCall => Unload(sc)
    case DestroyCall => Destroy(sc)
    case UpdateCall(v) => if sc.dir.variant == Legacy then sc else OnUpdate(sc, v)
    case ChangesCall(v) =>
      if sc.dir.variant == Dist then sc
      else (match OnChanges(sc, v)
            case Success(next) => next
            case Failure(_) => sc)
    case WrapCall(w) => AddIosWrapper(sc, w)
    case EventCall(ev) => Fire(sc, ev)
  }

  function Run(sc: Scene, calls: seq<Call>): Scene
    decreases |calls|
  {
    if |calls| == 0 then sc else Run(Step(sc, calls[0]), calls[1..])
  }

  /** Every call keeps the subscription invariant. */
  lemma StepConsistent(sc: Scene, c: Call)
    requires Consistent(sc)
    ensures Consistent(Step(sc, c))
  {
  }

  /**
   * Whatever the order of calls and events, each handler of the directive
   * is subscribed exactly once while bound and not at all otherwise.
   */
  lemma {:induction false} RunConsistent(sc: Scene, calls: seq<Call>)
    requires Consistent(sc)
    ensures Consistent(Run(sc, calls))
    decreases |calls|
  {
    if |calls| > 0 {
      StepConsistent(sc, calls[0]);
      RunConsistent(Step(sc, calls[0]), calls[1..]);
    }
  }

  /** A directive bound to an element none of whose subscriptions are its own keeps the invariant forever. */
  lemma FreshRunConsistent(variant: Variant, env: Env, el: Element, value: JsVal, calls: seq<Call>)
    requires Count(el.listeners, LoadListener) == 0 && Count(el.listeners, UnloadListener) == 0
    ensures Consistent(Run(Fresh(variant, env, el, value), calls))
  {
    RunConsistent(Fresh(variant, env, el, value), calls);
  }
}

=== FILE: native_views.dfy ===
/**
 * The native state the shadow code reads and writes, kept abstract:
 * drawables, the press-state animator and the element's elevation on
 * the layered-drawable backend (Android); the compositing layer's shadow
 * properties on the layer-shadow backend (iOS). Pixel conversions and
 * colour parsing are platform services, so their results stay symbolic.
 */
module NativeViews {
  import opened JsValues
  import opened Wrappers

  /** A pixel quantity computed by the platform, recorded by what it was computed from. */
  datatype Px =
    | DipPx(dip: JsVal)        // androidDipToPx(nativeView, dip)
    | LengthPx(length: JsVal)  // Length.toDevicePixels(length, 0)
    | RawPx(value: real)       // a literal handed straight to the platform

  /** An Android colour: the ARGB int of a colour drawable, or `Color.parseColor(spec)`. */
  datatype Colour = Argb(argb: int) | ParsedColour(spec: JsVal)

  /** The rounded-rectangle shape drawable that hosts a layered shadow's silhouette. */
  datatype RoundRect = RoundRect(radii: seq<Px>, paint: Colour)

  /** A view background. `LayeredShadow` and `PlainShadow` are the two drawables the shadow code creates. */
  datatype Drawable =
    | Ripple(content: Drawable)                                // RippleDrawable; `content` is its layer 0
    | Inset                                                    // InsetDrawable (a button's own shadow)
    | LayeredShadow(silhouette: RoundRect, original: Drawable) // layer 0 and layer 1
    | PlainShadow(shape: JsVal, radii: seq<Px>, fill: Colour)   // GradientDrawable subclass
    | ColorDrawable(colour: int)
    | OtherDrawable(id: nat)

  datatype StateAttr = StatePressed | StateEnabled

  /** What an animator state animates: translationZ and elevation targets with their durations. */
  datatype Motion = Motion(translationZ: Px, translationZDuration: real, elevation: Px, elevationDuration: real)

  datatype AnimatorEntry = AnimatorEntry(required: seq<StateAttr>, motion: Motion)

  /** A state-list animator: one the shadow code built, or one installed by someone else. */
  datatype Animator = ForeignAnimator(id: nat) | StateListAnimator(entries: seq<AnimatorEntry>)

  datatype AndroidView = AndroidView(background: Option<Drawable>, elevation: Px, translationZ: Px, animator: Option<Animator>)

  datatype Rect = Rect(width: real, height: real)

  datatype Size = Size(width: real, height: Number)

  datatype ShadowPath = RoundedRectPath(bounds: Rect, cornerRadius: Number)

  /** The compositing layer's shadow properties; `shadowColor` is the colour spec the CGColor was made from. */
  datatype Layer = Layer(
    maskToBounds: bool,
    shadowColor: JsVal,
    shadowOffset: Size,
    shadowOpacity: Number,
    shadowRadius: Number,
    shouldRasterize: JsVal,
    rasterizationScale: real,
    shadowPath: Option<ShadowPath>)

  datatype IosView = IosView(bounds: Rect, layer: Layer)

  /** The element's own per-corner border radii (as CSS lengths). */
  datatype Corners = Corners(topLeft: JsVal, topRight: JsVal, bottomRight: JsVal, bottomLeft: JsVal)

  /** A rendered element: its Android and iOS native surfaces, either of which may be missing. */
  datatype TnsView = TnsView(android: Option<AndroidView>, ios: Option<IosView>, corners: Corners)

  datatype Platform = AndroidPlatform | IosPlatform | OtherPlatform

  /**
   * Process-wide facts: the platform flags, the Android SDK level, the
   * `config_shortAnimTime` resource and the main screen's scale.
   */
  datatype Env = Env(platform: Platform, sdk: int, shortAnimTime: int, screenScale: real)
}

=== FILE: plugin.dfy ===
/**
 * The Vue side: the plugin's `install` guard and the directive hook
 * objects of both variants, which create, keep and dispose of the
 * per-element directive.
 */
module Plugin {
  import opened JsValues
  import opened Wrappers
  import opened NativeViews
  import opened Lifecycle

  // ---------------------------------------------------------------------
  // install
  // ---------------------------------------------------------------------

  /** What a directive name is registered to: this plugin's hook object, or another definition. */
  datatype Definition = ShadowHooks | OtherDefinition(id: nat)

  /** The registry of one Vue constructor: `Vue.directive(name, def)` maps a name to its definition. */
  datatype Vue = Vue(directives: map<string, Definition>)

  const DirectiveName := "shadow"

  /** `shadow` names this plugin's hooks, and every other name is as it was in `before`. */
  predicate RegisteredOver(before: Vue, after: Vue)
  {
    && DirectiveName in after.directives && after.directives[DirectiveName] == ShadowHooks
    && after.directives - {DirectiveName} == before.directives - {DirectiveName}
  }

  /**
   * `install(Vue)`: the `installed` flag lives on the `install` function
   * itself, so the first call registers `shadow` (replacing any earlier
   * definition of that name) and every later call, on any Vue, does nothing.
   */
  function Install(installed: bool, vue: Vue): (r: (bool, Vue))
    ensures r.0
    ensures installed ==> r.1 == vue
    ensures !installed ==> RegisteredOver(vue, r.1)
  {
    if installed then (true, vue) else (true, Vue(vue.directives[DirectiveName := ShadowHooks]))
  }

  /** Installing twice is installing once: `shadow` is registered and nothing else changes. */
  lemma InstallRegistersOnce(vue: Vue)
    ensures var first := Install(false, vue);
            var second := Install(first.0, first.1);
            && second == first
            && RegisteredOver(vue, second.1)
  {
  }

  /** After the first install, a second Vue gets nothing. */
  lemma SecondVueGetsNothing(first: Vue, other: Vue)
    ensures Install(Install(false, first).0, other).1 == other
  {
  }

  // ---------------------------------------------------------------------
  // Bundled hooks: the directive is kept on the element
  // ---------------------------------------------------------------------

  /** An element with the directive instance stored on it (`el.__vShadow`). */
  datatype Mount = Mount(env: Env, el: Element, attached: Option<Directive>)

  /** What goes wrong when a hook finds no directive on the element. */
  datatype HookError = NoDirective

  function SceneOf(m: Mount): Scene
    requires m.attached.Some?
  {
    Scene(m.env, m.attached.value, m.el)
  }

  function MountOf(sc: Scene): (m: Mount)
    ensures m.attached == Some(sc.dir) && m.el == sc.el && m.env == sc.env
  {
    Mount(sc.env, sc.el, Some(sc.dir))
  }

  /**
   * The scene `init` hands to `load` when the view is already loaded: the
   * constructed directive, initialised with its fields settled and
   * subscribed to the element.
   */
  function Initialised(variant: Variant, env: Env, el: Element, value: JsVal): (sc: Scene)
    ensures sc.dir.initialized && sc.dir.eventsBound && sc.el.listeners == el.listeners + [LoadListener, UnloadListener]
  {
    var c := Construct(variant, env, el, value);
    Scene(env, c.(initialized := true, eventsBound := true, style := InitData(variant, env.platform, c.shadow, c.style)),
          el.(listeners := el.listeners + [LoadListener, UnloadListener]))
  }

  /** `bind`: constructs the directive, initialises it and stores it on the element. */
  function BindHook(env: Env, el: Element, value: JsVal): (m: Mount)
    ensures m.attached.Some? && m.attached.value.initialized && m.attached.value.eventsBound
    ensures m.env == env
    ensures m.attached.value.variant == Dist
    ensures env.platform == AndroidPlatform ==> m.attached.value.originalRedraw == el.redraw
    ensures m.el.listeners == el.listeners + [LoadListener, UnloadListener] && m.el.isLoaded == el.isLoaded
    ensures m.attached.value.loaded == el.isLoaded
    ensures var c := Construct(Dist, env, el, value);
            m.attached.value.shadow == c.shadow && m.attached.value.style == InitData(Dist, env.platform, c.shadow, c.style)
    ensures el.isLoaded ==> m == MountOf(Load(Initialised(Dist, env, el, value)))
    ensures el.isLoaded && env.platform == AndroidPlatform ==> m.el.redraw == Some(ShadowPatch)
    ensures !el.isLoaded ==> m.el == el.(listeners := el.listeners + [LoadListener, UnloadListener]) && !m.attached.value.loaded
  {
    MountOf(Init(Scene(env, Construct(Dist, env, el, value), el)))
  }

  /** `inserted`: adds the iOS wrapper to the stored directive. */
  function InsertedHook(m: Mount, wrapperView: TnsView): (r: Result<Mount, HookError>)
    ensures m.attached.None? <==> r.Failure?
    ensures r.Success? ==> r.value == MountOf(AddIosWrapper(SceneOf(m), wrapperView))
  {
    if m.attached.None? then Failure(NoDirective) else Success(MountOf(AddIosWrapper(SceneOf(m), wrapperView)))
  }

  /** `update`: passes the new value to the stored directive's `onUpdate`. */
  function UpdateHook(m: Mount, value: JsVal): (r: Result<Mount, HookError>)
    ensures m.attached.None? <==> r.Failure?
    ensures r.Success? ==> r.value == MountOf(OnUpdate(SceneOf(m), value))
  {
    if m.attached.None? then Failure(NoDirective) else Success(MountOf(OnUpdate(SceneOf(m), value)))
  }

  /** `unbind`: destroys the stored directive and clears the slot, so a second `unbind` fails. */
  function UnbindHook(m: Mount): (r: Result<Mount, HookError>)
    ensures m.attached.None? <==> r.Failure?
    ensures r.Success? ==> r.value.attached.None? && r.value.el == Destroy(SceneOf(m)).el
  {
    if m.attached.None? then Failure(NoDirective) else Success(Mount(m.env, Destroy(SceneOf(m)).el, None))
  }

  /**
   * Binding and then unbinding leaves the element with the subscriptions
   * it had and, on Android, with the redraw hook it had; the drawn shadow
   * itself stays. Unbinding again then fails.
   */
  lemma BindUnbindRoundTrip(env: Env, el: Element, value: JsVal)
    ensures var r := UnbindHook(BindHook(env, el, value));
            && r.Success?
            && multiset(r.value.el.listeners) == multiset(el.listeners)
            && (env.platform == AndroidPlatform ==> r.value.el.redraw == el.redraw)
            && UnbindHook(r.value) == Failure(NoDirective)
            && r.value.el.view == BindHook(env, el, value).el.view
  {
    UnbindRestores(BindHook(env, el, value), el);
  }

  /**
   * Unbinding a directive that `bind` left initialised and subscribed on
   * `el`: the subscriptions and the Android redraw hook are those of `el`,
   * the view keeps what was drawn on it, and the slot is empty.
   */
  lemma UnbindRestores(m: Mount, el: Element)
    requires m.attached.Some? && m.attached.value.initialized && m.attached.value.eventsBound
    requires m.el.listeners == el.listeners + [LoadListener, UnloadListener]
    requires m.env.platform == AndroidPlatform ==> m.attached.value.originalRedraw == el.redraw
    ensures var r := UnbindHook(m);
            && r.Success?
            && multiset(r.value.el.listeners) == multiset(el.listeners)
            && (m.env.platform == AndroidPlatform ==> r.value.el.redraw == el.redraw)
            && UnbindHook(r.value) == Failure(NoDirective)
            && r.value.el.view == m.el.view
  {
    assert multiset(m.el.listeners) == multiset(el.listeners) + multiset{LoadListener, UnloadListener};
  }

  /** An update before the shadow ever loaded does nothing. */
  lemma UpdateBeforeLoadIsIgnored(env: Env, el: Element, value: JsVal, next: JsVal)
    requires !el.isLoaded
    ensures UpdateHook(BindHook(env, el, value), next) == Success(BindHook(env, el, value))
  {
    var sc := Scene(env, Construct(Dist, env, el, value), el);
    assert !Init(sc).dir.loaded;
  }

  // ---------------------------------------------------------------------
  // Older hooks: every hook builds a throw-away directive
  // ---------------------------------------------------------------------

  /**
   * Older `bind`: constructs and initialises a directive that is not kept
   * anywhere; it lives on only through its subscriptions and redraw patch
   * on the element.
   */
  function LegacyBindHook(env: Env, el: Element, value: JsVal): (sc: Scene)
    ensures sc.dir.variant == Legacy && sc.dir.initialized && sc.dir.eventsBound
    ensures sc.env == env
    ensures sc.el.listeners == el.listeners + [LoadListener, UnloadListener] && sc.el.isLoaded == el.isLoaded
    ensures sc.dir.loaded == el.isLoaded
    ensures var c := Construct(Legacy, env, el, value);
            sc.dir.shadow == c.shadow && sc.dir.style == InitData(Legacy, env.platform, c.shadow, c.style)
    ensures el.isLoaded ==> sc == Load(Initialised(Legacy, env, el, value))
    ensures el.isLoaded && env.platform == AndroidPlatform ==> sc.el.redraw == Some(ShadowPatch)
    ensures !el.isLoaded ==> sc.el == el.(listeners := el.listeners + [LoadListener, UnloadListener]) && !sc.dir.loaded
  {
    Init(Scene(env, Construct(Legacy, env, el, value), el))
  }

  /** The older hooks other than `bind`. */
  datatype LegacyHook = LegacyInserted | LegacyUpdate | LegacyComponentUpdated | LegacyUnbind

  /**
   * Older `inserted`, `update`, `componentUpdated` and `unbind`: each builds
   * a fresh, never-initialised directive from the binding and calls
   * `addIosWrapper`, nothing, nothing, or `destroy` on it; none of that
   * reaches the element.
   */
  function LegacyOtherHook(env: Env, el: Element, value: JsVal, hook: LegacyHook): (r: Element)
    ensures r == el
  {
    var sc := Scene(env, Construct(Legacy, env, el, value), el);
    var after := match hook
      case LegacyInserted => AddIosWrapper(sc, el.view)
      case LegacyUpdate => sc
      case LegacyComponentUpdated => sc
      case LegacyUnbind => Destroy(sc);
    after.el
  }

  /**
   * With the older hooks, unbinding leaves the bound directive's
   * subscriptions and redraw patch on the element: a later `loaded` event
   * still loads it.
   */
  lemma LegacyUnbindKeepsSubscriptions(env: Env, el: Element, value: JsVal, unbindValue: JsVal)
    requires Count(el.listeners, LoadListener) == 0 && Count(el.listeners, UnloadListener) == 0
    ensures var sc := LegacyBindHook(env, el, value);
            var left := LegacyOtherHook(env, sc.el, unbindValue, LegacyUnbind);
            && Count(left.listeners, LoadListener) == 1
            && Count(left.listeners, UnloadListener) == 1
            && Fire(sc.(el := left), Loaded).dir.loaded
  {
    var sc := LegacyBindHook(env, el, value);
    var initial := Scene(env, Construct(Legacy, env, el, value), el);
    assert Consistent(initial);
    assert Consistent(sc);
    var flagged := sc.el.(isLoaded := true);
    assert Count(sc.el.listeners, Subscriber(Loaded)) == 1;
    assert Fire(sc, Loaded) == RunHandler(sc.(el := flagged), Loaded, 1);
  }
}

=== FILE: shadow.dfy ===
/**
 * The style resolver and the two backend applicators (the `Shadow`
 * class): default resolution, the Android background/radii/colour
 * decision with its press-state animator, and the iOS layer formulas.
 */
module Shadow {
  import opened JsValues
  import opened JsNumbers
  import opened Wrappers
  import opened StyleRecord
  import opened NativeViews

  /** The first Android SDK level with elevation support. */
  const Lollipop := 21

  const Rectangle := Str("RECTANGLE")
  const DefaultBgColor := Str("#FFFFFF")
  const DefaultShadowColor := Str("#000000")
  const DefaultPressedElevation := IntNum(2)

  // ---------------------------------------------------------------------
  // Dispatch and defaults
  // ---------------------------------------------------------------------

  /**
   * `Shadow.apply`: the Android path when the view has an Android surface
   * and the SDK is at least 21, else the iOS path when it has an iOS
   * surface, else nothing. Both paths see the record with defaults filled.
   */
  function Apply(view: TnsView, data: Style, env: Env): (r: TnsView)
    ensures r.corners == view.corners
    ensures view.android.Some? && env.sdk >= Lollipop ==> r == ApplyOnAndroid(view, GetDefaults(data), env)
    ensures view.android.Some? && env.sdk >= Lollipop ==> r.ios == view.ios
    ensures !(view.android.Some? && env.sdk >= Lollipop) && view.ios.Some? ==> r == ApplyOnIOS(view, GetDefaults(data), env)
    ensures !(view.android.Some? && env.sdk >= Lollipop) ==> r.android == view.android
    ensures !(view.android.Some? && env.sdk >= Lollipop) && view.ios.None? ==> r == view
  {
    if view.android.Some? && env.sdk >= Lollipop then ApplyOnAndroid(view, GetDefaults(data), env)
    else if view.ios.Some? then ApplyOnIOS(view, GetDefaults(data), env)
    else view
  }

  /** The fields `getDefaults` fills when falsy (`x || default`). */
  const FalsyDefaulted: seq<Key> := [Shape, PressedElevation, PressedTranslationZ, ShadowColor]

  /** The fields `getDefaults` fills only when `undefined`. */
  const UndefinedDefaulted: seq<Key> := [UseShadowPath, Rasterize]

  /**
   * `getDefaults`: a new record equal to the input except that four fields
   * take a default when falsy and two only when undefined, so an explicit
   * `useShadowPath: false` survives while an explicit `pressedElevation: 0`
   * does not.
   */
  function GetDefaults(data: Style): (r: Style)
    ensures Truthy(r.shape) && Truthy(r.pressedElevation) && Truthy(r.pressedTranslationZ) && Truthy(r.shadowColor)
    ensures r.useShadowPath != Undefined && r.rasterize != Undefined
    ensures forall k :: k in FalsyDefaulted && Truthy(Field(data, k)) ==> Field(r, k) == Field(data, k)
    ensures forall k :: k in UndefinedDefaulted && Field(data, k) != Undefined ==> Field(r, k) == Field(data, k)
    ensures forall k :: k !in FalsyDefaulted && k !in UndefinedDefaulted ==> Field(r, k) == Field(data, k)
    ensures !Truthy(data.shape) ==> r.shape == Rectangle
    ensures !Truthy(data.pressedElevation) ==> r.pressedElevation == DefaultPressedElevation
    ensures !Truthy(data.pressedTranslationZ) ==> r.pressedTranslationZ == DefaultPressedElevation
    ensures !Truthy(data.shadowColor) ==> r.shadowColor == DefaultShadowColor
    ensures data.useShadowPath == Undefined ==> r.useShadowPath == Bool(true)
    ensures data.rasterize == Undefined ==> r.rasterize == Bool(false)
  {
    data.(
      shape := Or(data.shape, Rectangle),
      pressedElevation := Or(data.pressedElevation, DefaultPressedElevation),
      pressedTranslationZ := Or(data.pressedTranslationZ, DefaultPressedElevation),
      shadowColor := Or(data.shadowColor, DefaultShadowColor),
      useShadowPath := if data.useShadowPath != Undefined then data.useShadowPath else Bool(true),
      rasterize := if data.rasterize != Undefined then data.rasterize else Bool(false))
  }

  /** Resolving defaults twice is resolving them once. */
  lemma GetDefaultsIdempotent(data: Style)
    ensures GetDefaults(GetDefaults(data)) == GetDefaults(data)
  {
    var once := GetDefaults(data);
    StyleExtensionality(GetDefaults(once), once);
  }

  /** An explicit `false` (or any defined value) for `useShadowPath`/`rasterize` is kept; an explicit `0` for a pressed value is replaced. */
  lemma GetDefaultsKeepsDefinedButNotFalsy(data: Style)
    ensures data.useShadowPath == Bool(false) ==> GetDefaults(data).useShadowPath == Bool(false)
    ensures data.rasterize == Bool(false) ==> GetDefaults(data).rasterize == Bool(false)
    ensures data.pressedElevation == IntNum(0) ==> GetDefaults(data).pressedElevation == IntNum(2)
    ensures GetDefaults(data).cornerRadius == data.cornerRadius
  {
  }

  // ---------------------------------------------------------------------
  // Android: the background decision
  // ---------------------------------------------------------------------

  /** Whether a drawable is one of the two shadow drawables this code creates. */
  predicate IsShadow(d: Drawable)
  {
    d.LayeredShadow? || d.PlainShadow?
  }

  /** What the current background leaves to build on: leave it alone, or build over `base`. */
  datatype Base = KeepBackground | Build(base: Option<Drawable>)

  /** The original background under an earlier shadow: layer 1 of a layered one, none for a plain one. */
  function StripShadow(d: Drawable): Option<Drawable>
    requires IsShadow(d)
  {
    if d.LayeredShadow? then Some(d.original) else None
  }

  /**
   * The unwrap step: a ripple around an inset drawable keeps the background;
   * a ripple around a shadow is treated as that shadow; an earlier shadow is
   * replaced by the background it was built over.
   */
  function ResolveBase(current: Option<Drawable>): (r: Base)
    ensures r.KeepBackground? <==> current == Some(Ripple(Inset))
    ensures current.Some? && current.value.Ripple? && IsShadow(current.value.content) ==>
              r == Build(StripShadow(current.value.content))
    ensures current.Some? && IsShadow(current.value) ==> r == Build(StripShadow(current.value))
    ensures current.None? ==> r == Build(None)
    ensures (&& current.Some? && current != Some(Ripple(Inset)) && !IsShadow(current.value)
             && !(current.value.Ripple? && IsShadow(current.value.content))) ==> r == Build(current)
  {
    if current == Some(Ripple(Inset)) then KeepBackground
    else
      var bg := if current.Some? && current.value.Ripple? && IsShadow(current.value.content)
                then Some(current.value.content) else current;
      if bg.Some? && IsShadow(bg.value) then Build(StripShadow(bg.value)) else Build(bg)
  }

  /** The corner of slot pair `i` (0 top-left, 1 top-right, 2 bottom-right, 3 bottom-left). */
  function Corner(corners: Corners, i: nat): JsVal
    requires i < 4
  {
    if i == 0 then corners.topLeft
    else if i == 1 then corners.topRight
    else if i == 2 then corners.bottomRight
    else corners.bottomLeft
  }

  /**
   * The eight corner-radius slots: pairwise from the element's own corner
   * radii when `cornerRadius` is undefined, otherwise all equal to it in
   * device pixels (so an explicit 0 is honoured).
   */
  function CornerRadii(cornerRadius: JsVal, corners: Corners): (radii: seq<Px>)
    ensures |radii| == 8
    ensures cornerRadius == Undefined ==> forall i :: 0 <= i < 8 ==> radii[i] == LengthPx(Corner(corners, i / 2))
    ensures cornerRadius != Undefined ==> forall i :: 0 <= i < 8 ==> radii[i] == DipPx(cornerRadius)
  {
    if cornerRadius == Undefined then
      var tl := LengthPx(corners.topLeft);
      var tr := LengthPx(corners.topRight);
      var br := LengthPx(corners.bottomRight);
      var bl := LengthPx(corners.bottomLeft);
      [tl, tl, tr, tr, br, br, bl, bl]
    else
      var px := DipPx(cornerRadius);
      [px, px, px, px, px, px, px, px]
  }

  /** Whether the base background is a colour drawable with a non-zero colour, whose colour then wins. */
  predicate HasOwnColour(base: Option<Drawable>)
  {
    base.Some? && base.value.ColorDrawable? && base.value.colour != 0
  }

  /** The fill colour: the base's own non-zero colour, else `bgcolor`, else white. */
  function FillColour(base: Option<Drawable>, bgcolor: JsVal): (c: Colour)
    ensures HasOwnColour(base) ==> c == Argb(base.value.colour)
    ensures !HasOwnColour(base) && Truthy(bgcolor) ==> c == ParsedColour(bgcolor)
    ensures !HasOwnColour(base) && !Truthy(bgcolor) ==> c == ParsedColour(DefaultBgColor)
  {
    if base.Some? && base.value.ColorDrawable? && base.value.colour != 0 then Argb(base.value.colour)
    else ParsedColour(Or(bgcolor, DefaultBgColor))
  }

  /**
   * The new background over `base`: a plain shadow replacing it when the
   * shape is not a rectangle, a `bgcolor` is given or there is no base;
   * otherwise a two-layer shadow whose layer 1 is the base itself.
   */
  function NewBackground(base: Option<Drawable>, data: Style, corners: Corners): (d: Drawable)
    ensures IsShadow(d)
    ensures d.PlainShadow? <==> data.shape != Rectangle || Truthy(data.bgcolor) || base.None?
    ensures d.LayeredShadow? ==> d.original == base.value
    ensures d.PlainShadow? ==> d.shape == data.shape
    ensures d.PlainShadow? ==> d.radii == CornerRadii(data.cornerRadius, corners) && d.fill == FillColour(base, data.bgcolor)
    ensures d.LayeredShadow? ==> d.silhouette == RoundRect(CornerRadii(data.cornerRadius, corners), FillColour(base, data.bgcolor))
  {
    var radii := CornerRadii(data.cornerRadius, corners);
    var colour := FillColour(base, data.bgcolor);
    if data.shape != Rectangle || Truthy(data.bgcolor) || base.None? then PlainShadow(data.shape, radii, colour)
    else LayeredShadow(RoundRect(radii, colour), base.value)
  }

  /**
   * `applyOnAndroid`: rebuilds the background unless a ripple wraps an
   * inset drawable; always writes elevation and translationZ; replaces
   * the animator exactly when one exists or a press animation is forced.
   */
  function ApplyOnAndroid(view: TnsView, data: Style, env: Env): (r: TnsView)
    requires view.android.Some?
    ensures r.android.Some? && r.ios == view.ios && r.corners == view.corners
    ensures r.android.value.elevation == DipPx(data.elevation)
    ensures r.android.value.translationZ == DipPx(data.translationZ)
    ensures view.android.value.background == Some(Ripple(Inset)) ==>
              r.android.value.background == view.android.value.background
    ensures view.android.value.background != Some(Ripple(Inset)) ==>
              r.android.value.background.Some? && IsShadow(r.android.value.background.value)
    ensures var rb := ResolveBase(view.android.value.background);
            rb.Build? ==> r.android.value.background == Some(NewBackground(rb.base, data, view.corners))
    ensures (view.android.value.animator.Some? || Truthy(data.forcePressAnimation)) ==>
              r.android.value.animator == Some(PressAnimator(data, env.shortAnimTime))
    ensures !(view.android.value.animator.Some? || Truthy(data.forcePressAnimation)) ==>
              r.android.value.animator == view.android.value.animator
  {
    var nv := view.android.value;
    var background := match ResolveBase(nv.background)
      case KeepBackground => nv.background
      case Build(base) => Some(NewBackground(base, data, view.corners));
    var animator := if nv.animator.Some? || Truthy(data.forcePressAnimation)
      then Some(PressAnimator(data, env.shortAnimTime)) else nv.animator;
    view.(android := Some(AndroidView(background, DipPx(data.elevation), DipPx(data.translationZ), animator)))
  }

  // ---------------------------------------------------------------------
  // Android: the press-state animator
  // ---------------------------------------------------------------------

  /** `overrideDefaultAnimator`: pressed+enabled, enabled, and the catch-all state, in that order. */
  function PressAnimator(data: Style, shortAnimTime: int): (a: Animator)
    ensures a.StateListAnimator? && |a.entries| == 3
  {
    var half := shortAnimTime as real / 2.0;
    StateListAnimator([
      AnimatorEntry([StatePressed, StateEnabled],
        Motion(DipPx(data.pressedTranslationZ), half, DipPx(data.pressedElevation), 0.0)),
      AnimatorEntry([StateEnabled],
        Motion(DipPx(Or(data.translationZ, IntNum(0))), half, DipPx(data.elevation), 0.0)),
      AnimatorEntry([], Motion(RawPx(0.0), 0.0, RawPx(0.0), 0.0))
    ])
  }

  predicate StateHolds(attr: StateAttr, pressed: bool, enabled: bool)
  {
    match attr
    case StatePressed => pressed
    case StateEnabled => enabled
  }

  /** The motion of the first entry whose required states all hold, as a state-list animator picks it. */
  function FirstMatch(entries: seq<AnimatorEntry>, pressed: bool, enabled: bool): Option<Motion>
  {
    if |entries| == 0 then None
    else if forall i :: 0 <= i < |entries[0].required| ==> StateHolds(entries[0].required[i], pressed, enabled)
    then Some(entries[0].motion)
    else FirstMatch(entries[1..], pressed, enabled)
  }

  /** What an animator does in the given view state. */
  function MotionFor(a: Animator, pressed: bool, enabled: bool): Option<Motion>
  {
    match a
    case ForeignAnimator(_) => None
    case StateListAnimator(entries) => FirstMatch(entries, pressed, enabled)
  }

  /**
   * The three states of the press animator: pressed and enabled lifts to
   * the pressed values, enabled rests at the resting values, disabled
   * drops both to 0 at once. translationZ moves over half the short
   * animation time, elevation instantly.
   */
  lemma PressAnimatorStates(data: Style, shortAnimTime: int, pressed: bool)
    ensures var a := PressAnimator(data, shortAnimTime);
            var half := shortAnimTime as real / 2.0;
            && MotionFor(a, true, true)
               == Some(Motion(DipPx(data.pressedTranslationZ), half, DipPx(data.pressedElevation), 0.0))
            && MotionFor(a, false, true)
               == Some(Motion(DipPx(Or(data.translationZ, IntNum(0))), half, DipPx(data.elevation), 0.0))
            && MotionFor(a, pressed, false) == Some(Motion(RawPx(0.0), 0.0, RawPx(0.0), 0.0))
  {
    var a := PressAnimator(data, shortAnimTime);
    var e := a.entries;
    assert e[1..][1..] == [e[2]];
    assert FirstMatch(e, true, true) == Some(e[0].motion);
    assert !StateHolds(e[0].required[0], false, true);
    assert FirstMatch(e[1..], false, true) == Some(e[1].motion);
    assert !StateHolds(e[0].required[1], pressed, false);
    assert !StateHolds(e[1..][0].required[0], pressed, false);
    assert FirstMatch(e[1..][1..], pressed, false) == Some(e[2].motion);
    assert FirstMatch(e[1..], pressed, false) == FirstMatch(e[1..][1..], pressed, false);
    assert FirstMatch(e, pressed, false) == FirstMatch(e[1..], pressed, false);
    assert MotionFor(a, true, true) == Some(e[0].motion);
    assert MotionFor(a, false, true) == Some(e[1].motion);
    assert MotionFor(a, pressed, false) == Some(e[2].motion);
  }

  // ---------------------------------------------------------------------
  // Android: shadows never nest
  // ---------------------------------------------------------------------

  /** No shadow drawable anywhere inside. */
  predicate ShadowFree(d: Drawable)
  {
    match d
    case Ripple(c) => ShadowFree(c)
    case LayeredShadow(_, _) => false
    case PlainShadow(_, _, _) => false
    case _ => true
  }

  /** Exactly one shadow layer, at the top, over a shadow-free original. */
  predicate SingleShadow(d: Drawable)
  {
    d.PlainShadow? || (d.LayeredShadow? && ShadowFree(d.original))
  }

  /** A background as it can be found on a view: no shadow, one shadow, or a ripple around one shadow. */
  predicate Normal(bg: Option<Drawable>)
  {
    bg.None? || ShadowFree(bg.value) || SingleShadow(bg.value)
    || (bg.value.Ripple? && SingleShadow(bg.value.content))
  }

  /** Unwrapping a normal background leaves a shadow-free base. */
  lemma ResolveBaseIsShadowFree(bg: Option<Drawable>)
    requires Normal(bg)
    ensures ResolveBase(bg).Build? && ResolveBase(bg).base.Some? ==> ShadowFree(ResolveBase(bg).base.value)
  {
    if bg.Some? && bg.value.Ripple? && IsShadow(bg.value.content) {
      assert !ShadowFree(bg.value.content);
      assert !ShadowFree(bg.value);
      assert SingleShadow(bg.value.content);
    }
  }

  /**
   * Applying a shadow to a normal background leaves either the untouched
   * ripple-around-inset or exactly one shadow layer over a shadow-free
   * original: re-applying never stacks shadows.
   */
  lemma ApplyOnAndroidNeverNests(view: TnsView, data: Style, env: Env)
    requires view.android.Some? && Normal(view.android.value.background)
    ensures var bg := ApplyOnAndroid(view, data, env).android.value.background;
            && Normal(bg)
            && (bg == Some(Ripple(Inset)) || (bg.Some? && SingleShadow(bg.value)))
  {
    ResolveBaseIsShadowFree(view.android.value.background);
  }

  /** `n` applications of the Android path in a row. */
  function ApplyOnAndroidTimes(view: TnsView, data: Style, env: Env, n: nat): (r: TnsView)
    requires view.android.Some?
    ensures r.android.Some?
  {
    if n == 0 then view else ApplyOnAndroid(ApplyOnAndroidTimes(view, data, env, n - 1), data, env)
  }

  /** However many times the shadow is re-applied, the background holds at most one shadow layer. */
  lemma {:induction false} RepeatedApplyNeverNests(view: TnsView, data: Style, env: Env, n: nat)
    requires view.android.Some? && Normal(view.android.value.background)
    ensures Normal(ApplyOnAndroidTimes(view, data, env, n).android.value.background)
  {
    if n > 0 {
      RepeatedApplyNeverNests(view, data, env, n - 1);
      ApplyOnAndroidNeverNests(ApplyOnAndroidTimes(view, data, env, n - 1), data, env);
    }
  }

  /** The base of a newly built shadow is the base it was built over (layered), or none (plain). */
  lemma ResolveBaseOfNewBackground(base: Option<Drawable>, data: Style, corners: Corners)
    ensures var d := NewBackground(base, data, corners);
            ResolveBase(Some(d)) == Build(if d.LayeredShadow? then base else None)
  {
  }

  /**
   * Re-applying with the same data changes nothing, unless a plain shadow
   * replaced a background whose own colour it had taken: the second pass
   * no longer sees that colour (see ReapplyForgetsBackgroundColour).
   */
  lemma ApplyOnAndroidIdempotent(view: TnsView, data: Style, env: Env)
    requires view.android.Some?
    requires var rb := ResolveBase(view.android.value.background);
             rb.Build? ==> NewBackground(rb.base, data, view.corners).LayeredShadow? || !HasOwnColour(rb.base)
    ensures ApplyOnAndroid(ApplyOnAndroid(view, data, env), data, env) == ApplyOnAndroid(view, data, env)
  {
    var rb := ResolveBase(view.android.value.background);
    if rb.Build? {
      ResolveBaseOfNewBackground(rb.base, data, view.corners);
    }
  }

  /** A red oval: the first pass fills with red, the second with white. */
  lemma ReapplyForgetsBackgroundColour(env: Env)
    ensures var red := 0xFFFF0000;
            var corners := Corners(Undefined, Undefined, Undefined, Undefined);
            var view := TnsView(Some(AndroidView(Some(ColorDrawable(red)), RawPx(0.0), RawPx(0.0), None)), None, corners);
            var data := Unset.(elevation := IntNum(4), shape := Str("OVAL"));
            var once := ApplyOnAndroid(view, data, env);
            var twice := ApplyOnAndroid(once, data, env);
            && once.android.value.background.value.fill == Argb(red)
            && twice.android.value.background.value.fill == ParsedColour(DefaultBgColor)
  {
  }

  // ---------------------------------------------------------------------
  // iOS: layer shadow formulas
  // ---------------------------------------------------------------------

  /** The elevation as the iOS path reads it: `parseFloat((elevation - 0).toFixed(2))`. */
  function IosElevation(data: Style): Number
  {
    ToFixed2(ToNumber(data.elevation))
  }

  /** `a * e + b` with NaN propagating. */
  function Affine(a: real, e: Number, b: real): Number
  {
    match e
    case NaN => NaN
    case Finite(x) => Finite(a * x + b)
  }

  function DefaultOffsetY(e: Number): Number { Affine(0.54, e, -0.14) }
  function DefaultOpacity(e: Number): Number { Affine(0.006, e, 0.25) }
  function DefaultRadius(e: Number): Number { Affine(0.66, e, -0.5) }

  /** An explicit truthy setting read through `parseFloat(String(v))`, else the formula. */
  function ExplicitOr(v: JsVal, formula: Number): Number
  {
    if Truthy(v) then ParseFloatOf(v) else formula
  }

  /**
   * `applyOnIOS`: clipping off, colour from `shadowColor`, offset/opacity/radius
   * from explicit truthy values or the elevation formulas, rasterisation as
   * given, and a rounded-rect shadow path exactly when `useShadowPath` is truthy.
   */
  function ApplyOnIOS(view: TnsView, data: Style, env: Env): (r: TnsView)
    requires view.ios.Some?
    ensures r.android == view.android && r.corners == view.corners
    ensures r.ios.Some? && r.ios.value.bounds == view.ios.value.bounds
    ensures var layer := r.ios.value.layer;
            var e := IosElevation(data);
            && !layer.maskToBounds
            && layer.shadowColor == data.shadowColor
            && layer.shadowOffset == Size(0.0, ExplicitOr(data.shadowOffset, DefaultOffsetY(e)))
            && layer.shadowOpacity == ExplicitOr(data.shadowOpacity, DefaultOpacity(e))
            && layer.shadowRadius == ExplicitOr(data.shadowRadius, DefaultRadius(e))
            && layer.shouldRasterize == data.rasterize
            && layer.rasterizationScale == env.screenScale
            && (layer.shadowPath.Some? <==> Truthy(data.useShadowPath))
            && (layer.shadowPath.Some? ==>
                  layer.shadowPath.value == RoundedRectPath(view.ios.value.bounds, layer.shadowRadius))
  {
    var nv := view.ios.value;
    var e := IosElevation(data);
    var radius := ExplicitOr(data.shadowRadius, DefaultRadius(e));
    var layer := Layer(
      false,
      data.shadowColor,
      Size(0.0, ExplicitOr(data.shadowOffset, DefaultOffsetY(e))),
      ExplicitOr(data.shadowOpacity, DefaultOpacity(e)),
      radius,
      data.rasterize,
      env.screenScale,
      if Truthy(data.useShadowPath) then Some(RoundedRectPath(nv.bounds, radius)) else None);
    view.(ios := Some(nv.(layer := layer)))
  }

  /** At elevation 10 with no explicit values: offset 5.26, opacity 0.31, radius 6.1. */
  lemma IosShadowAtElevationTen(view: TnsView, data: Style, env: Env)
    requires view.ios.Some?
    requires data.elevation == IntNum(10)
    requires !Truthy(data.shadowOffset) && !Truthy(data.shadowOpacity) && !Truthy(data.shadowRadius)
    ensures var layer := ApplyOnIOS(view, data, env).ios.value.layer;
            && layer.shadowOffset == Size(0.0, Finite(5.26))
            && layer.shadowOpacity == Finite(0.31)
            && layer.shadowRadius == Finite(6.1)
  {
    RoundCentsOfInteger(10);
    assert IosElevation(data) == Finite(10.0);
  }

  /**
   * An explicit truthy `shadowRadius` wins at every elevation: the layer's
   * radius is that value read through `parseFloat`, and so is the radius
   * of the shadow path, whatever the elevation.
   */
  lemma IosExplicitRadiusIgnoresElevation(view: TnsView, data: Style, env: Env, e: JsVal)
    requires view.ios.Some? && Truthy(data.shadowRadius)
    ensures var layer := ApplyOnIOS(view, data.(elevation := e), env).ios.value.layer;
            && layer.shadowRadius == ParseFloatOf(data.shadowRadius)
            && layer.shadowPath == ApplyOnIOS(view, data, env).ios.value.layer.shadowPath
  {
  }

  /** The iOS path never reads `maskToBounds`: the layer comes out the same whatever it is. */
  lemma IosIgnoresMaskToBounds(view: TnsView, data: Style, env: Env, m: JsVal)
    requires view.ios.Some?
    ensures ApplyOnIOS(view, data.(maskToBounds := m), env) == ApplyOnIOS(view, data, env)
  {
  }

  /** Applying through the dispatcher twice is applying once, under the colour caveat of the Android path. */
  lemma ApplyIdempotent(view: TnsView, data: Style, env: Env)
    requires view.android.Some? && env.sdk >= Lollipop ==>
             var rb := ResolveBase(view.android.value.background);
             rb.Build? ==> NewBackground(rb.base, GetDefaults(data), view.corners).LayeredShadow? || !HasOwnColour(rb.base)
    ensures Apply(Apply(view, data, env), data, env) == Apply(view, data, env)
  {
    if view.android.Some? && env.sdk >= Lollipop {
      ApplyOnAndroidIdempotent(view, GetDefaults(data), env);
    }
  }
}

=== FILE: style_record.dfy ===
/**
 * The per-element style record the directive keeps: one slot per style
 * field, each holding whatever JavaScript value was bound. Every field
 * is reached through a `Key`, so that intake and merge policies can be
 * stated once over lists of keys.
 */
module StyleRecord {
  import opened JsValues
  import opened Wrappers

  datatype Key =
    | Elevation
    | PressedElevation
    | Shape
    | BgColor
    | CornerRadius
    | TranslationZ
    | PressedTranslationZ
    | ForcePressAnimation
    | MaskToBounds
    | ShadowColor
    | ShadowOffset
    | ShadowOpacity
    | ShadowRadius
    | Rasterize
    | UseShadowPath

  /** The property name a key has in a bound object. */
  function Name(k: Key): string
  {
    match k
    case Elevation => "elevation"
    case PressedElevation => "pressedElevation"
    case Shape => "shape"
    case BgColor => "bgcolor"
    case CornerRadius => "cornerRadius"
    case TranslationZ => "translationZ"
    case PressedTranslationZ => "pressedTranslationZ"
    case ForcePressAnimation => "forcePressAnimation"
    case MaskToBounds => "maskToBounds"
    case ShadowColor => "shadowColor"
    case ShadowOffset => "shadowOffset"
    case ShadowOpacity => "shadowOpacity"
    case ShadowRadius => "shadowRadius"
    case Rasterize => "rasterize"
    case UseShadowPath => "useShadowPath"
  }

  /** The key a property name stands for, if any. */
  function KeyNamed(name: string): Option<Key>
  {
    if name == "elevation" then Some(Elevation)
    else if name == "pressedElevation" then Some(PressedElevation)
    else if name == "shape" then Some(Shape)
    else if name == "bgcolor" then Some(BgColor)
    else if name == "cornerRadius" then Some(CornerRadius)
    else if name == "translationZ" then Some(TranslationZ)
    else if name == "pressedTranslationZ" then Some(PressedTranslationZ)
    else if name == "forcePressAnimation" then Some(ForcePressAnimation)
    else if name == "maskToBounds" then Some(MaskToBounds)
    else if name == "shadowColor" then Some(ShadowColor)
    else if name == "shadowOffset" then Some(ShadowOffset)
    else if name == "shadowOpacity" then Some(ShadowOpacity)
    else if name == "shadowRadius" then Some(ShadowRadius)
    else if name == "rasterize" then Some(Rasterize)
    else if name == "useShadowPath" then Some(UseShadowPath)
    else None
  }

  /** Property names identify keys: reading a key's name back gives the key. */
  lemma NameRoundTrip(k: Key)
    ensures KeyNamed(Name(k)) == Some(k)
  {
    match k
    case Elevation =>
    case PressedElevation =>
    case Shape =>
    case BgColor =>
    case CornerRadius =>
    case TranslationZ =>
    case PressedTranslationZ =>
    case ForcePressAnimation =>
    case MaskToBounds =>
    case ShadowColor =>
    case ShadowOffset =>
    case ShadowOpacity =>
    case ShadowRadius =>
    case Rasterize =>
    case UseShadowPath =>
  }

  /** Distinct keys have distinct property names. */
  lemma NameInjective(a: Key, b: Key)
    requires Name(a) == Name(b)
    ensures a == b
  {
    NameRoundTrip(a);
    NameRoundTrip(b);
  }

  datatype Style = Style(
    elevation: JsVal,
    pressedElevation: JsVal,
    shape: JsVal,
    bgcolor: JsVal,
    cornerRadius: JsVal,
    translationZ: JsVal,
    pressedTranslationZ: JsVal,
    forcePressAnimation: JsVal,
    maskToBounds: JsVal,
    shadowColor: JsVal,
    shadowOffset: JsVal,
    shadowOpacity: JsVal,
    shadowRadius: JsVal,
    rasterize: JsVal,
    useShadowPath: JsVal)

  /** A freshly constructed directive: every field `undefined`. */
  const Unset := Style(Undefined, Undefined, Undefined, Undefined, Undefined, Undefined, Undefined,
                       Undefined, Undefined, Undefined, Undefined, Undefined, Undefined, Undefined, Undefined)

  function Field(s: Style, k: Key): JsVal
  {
    match k
    case Elevation => s.elevation
    case PressedElevation => s.pressedElevation
    case Shape => s.shape
    case BgColor => s.bgcolor
    case CornerRadius => s.cornerRadius
    case TranslationZ => s.translationZ
    case PressedTranslationZ => s.pressedTranslationZ
    case ForcePressAnimation => s.forcePressAnimation
    case MaskToBounds => s.maskToBounds
    case ShadowColor => s.shadowColor
    case ShadowOffset => s.shadowOffset
    case ShadowOpacity => s.shadowOpacity
    case ShadowRadius => s.shadowRadius
    case Rasterize => s.rasterize
    case UseShadowPath => s.useShadowPath
  }

  /** The record with one field replaced. */
  function With(s: Style, k: Key, v: JsVal): (r: Style)
    ensures Field(r, k) == v
    ensures forall k' :: k' != k ==> Field(r, k') == Field(s, k')
  {
    match k
    case Elevation => s.(elevation := v)
    case PressedElevation => s.(pressedElevation := v)
    case Shape => s.(shape := v)
    case BgColor => s.(bgcolor := v)
    case CornerRadius => s.(cornerRadius := v)
    case TranslationZ => s.(translationZ := v)
    case PressedTranslationZ => s.(pressedTranslationZ := v)
    case ForcePressAnimation => s.(forcePressAnimation := v)
    case MaskToBounds => s.(maskToBounds := v)
    case ShadowColor => s.(shadowColor := v)
    case ShadowOffset => s.(shadowOffset := v)
    case ShadowOpacity => s.(shadowOpacity := v)
    case ShadowRadius => s.(shadowRadius := v)
    case Rasterize => s.(rasterize := v)
    case UseShadowPath => s.(useShadowPath := v)
  }

  /** Two records are equal when every field is. */
  lemma StyleExtensionality(a: Style, b: Style)
    requires forall k :: Field(a, k) == Field(b, k)
    ensures a == b
  {
    assert Field(a, Elevation) == Field(b, Elevation);
    assert Field(a, PressedElevation) == Field(b, PressedElevation);
    assert Field(a, Shape) == Field(b, Shape);
    assert Field(a, BgColor) == Field(b, BgColor);
    assert Field(a, CornerRadius) == Field(b, CornerRadius);
    assert Field(a, TranslationZ) == Field(b, TranslationZ);
    assert Field(a, PressedTranslationZ) == Field(b, PressedTranslationZ);
    assert Field(a, ForcePressAnimation) == Field(b, ForcePressAnimation);
    assert Field(a, MaskToBounds) == Field(b, MaskToBounds);
    assert Field(a, ShadowColor) == Field(b, ShadowColor);
    assert Field(a, ShadowOffset) == Field(b, ShadowOffset);
    assert Field(a, ShadowOpacity) == Field(b, ShadowOpacity);
    assert Field(a, ShadowRadius) == Field(b, ShadowRadius);
    assert Field(a, Rasterize) == Field(b, Rasterize);
    assert Field(a, UseShadowPath) == Field(b, UseShadowPath);
  }

  // ---------------------------------------------------------------------
  // Key lists
  // ---------------------------------------------------------------------

  /** The fields whose presence in a bound object marks it as carrying layered-drawable (Android) settings. */
  const AndroidKeys: seq<Key> :=
    [PressedElevation, Shape, BgColor, CornerRadius, TranslationZ, PressedTranslationZ, ForcePressAnimation]

  /** The fields whose presence marks layer-shadow (iOS) settings. */
  const IosKeys: seq<Key> :=
    [MaskToBounds, ShadowColor, ShadowOffset, ShadowOpacity, ShadowRadius, UseShadowPath, Rasterize]

  /** Every field, in the order the source declares them. */
  const AllKeys: seq<Key> := [Elevation] + AndroidKeys + IosKeys

  /** `key in v` for at least one of the keys. */
  predicate HasAnyKey(v: JsVal, keys: seq<Key>)
  {
    exists i :: 0 <= i < |keys| && Has(v, Name(keys[i]))
  }

  /** No field is both an Android and an iOS field, and `elevation` is neither. */
  lemma KeyListsDisjoint(k: Key)
    ensures !(k in AndroidKeys && k in IosKeys)
    ensures k == Elevation ==> k !in AndroidKeys && k !in IosKeys
  {
  }

  /** A fresh record has every field `undefined`. */
  lemma UnsetField(k: Key)
    ensures Field(Unset, k) == Undefined
  {
  }

  /** Every field is listed. */
  lemma KeyInAllKeys(k: Key)
    ensures k in AllKeys
  {
    match k
    case Elevation => assert AllKeys[0] == k;
    case PressedElevation => assert AllKeys[1] == k;
    case Shape => assert AllKeys[2] == k;
    case BgColor => assert AllKeys[3] == k;
    case CornerRadius => assert AllKeys[4] == k;
    case TranslationZ => assert AllKeys[5] == k;
    case PressedTranslationZ => assert AllKeys[6] == k;
    case ForcePressAnimation => assert AllKeys[7] == k;
    case MaskToBounds => assert AllKeys[8] == k;
    case ShadowColor => assert AllKeys[9] == k;
    case ShadowOffset => assert AllKeys[10] == k;
    case ShadowOpacity => assert AllKeys[11] == k;
    case ShadowRadius => assert AllKeys[12] == k;
    case UseShadowPath => assert AllKeys[13] == k;
    case Rasterize => assert AllKeys[14] == k;
  }

  // ---------------------------------------------------------------------
  // Field-wise rewriting: the shape of every intake and merge step
  // ---------------------------------------------------------------------

  /** Rewrites each listed field once with `f` (a repeated key counts once) and leaves every other field alone. */
  function Rewrite(s: Style, keys: seq<Key>, f: (Key, JsVal) -> JsVal): (r: Style)
    ensures forall k :: Field(r, k) == if k in keys then f(k, Field(s, k)) else Field(s, k)
    decreases |keys|
  {
    if |keys| == 0 then s
    else
      var k0 := keys[0];
      var rest := Rewrite(s, keys[1..], f);
      assert forall k :: k in keys <==> k == k0 || k in keys[1..];
      if k0 in keys[1..] then rest else With(rest, k0, f(k0, Field(s, k0)))
  }

  /** Each listed field takes the source's property verbatim (`this.x = src.x`); missing properties read as `undefined`. */
  function Copy(s: Style, source: JsVal, keys: seq<Key>): (r: Style)
    ensures forall k :: Field(r, k) == if k in keys then Get(source, Name(k)) else Field(s, k)
  {
    Rewrite(s, keys, (k, v) => Get(source, Name(k)))
  }

  /** Each listed field becomes `src.x || this.x`: a falsy incoming value keeps the old one. */
  function Merge(s: Style, source: JsVal, keys: seq<Key>): (r: Style)
    ensures forall k :: k in keys && Truthy(Get(source, Name(k))) ==> Field(r, k) == Get(source, Name(k))
    ensures forall k :: k in keys && !Truthy(Get(source, Name(k))) ==> Field(r, k) == Field(s, k)
    ensures forall k :: k !in keys ==> Field(r, k) == Field(s, k)
  {
    Rewrite(s, keys, (k, v) => Or(Get(source, Name(k)), v))
  }

  /** Merging the same source twice is merging it once. */
  lemma MergeIdempotent(s: Style, source: JsVal, keys: seq<Key>)
    ensures Merge(Merge(s, source, keys), source, keys) == Merge(s, source, keys)
  {
    var once := Merge(s, source, keys);
    StyleExtensionality(Merge(once, source, keys), once);
  }

  /** The object literal `{ x: this.x, ... }` built from the listed fields. */
  function ObjectOf(s: Style, keys: seq<Key>): (r: JsVal)
    ensures r.Obj?
    ensures forall k :: k in keys ==> Has(r, Name(k)) && Get(r, Name(k)) == Field(s, k)
  {
    if |keys| == 0 then Obj(map[])
    else
      var rest := ObjectOf(s, keys[1..]);
      var r := Obj(rest.props[Name(keys[0]) := Field(s, keys[0])]);
      assert forall k :: k in keys[1..] && Name(k) == Name(keys[0]) ==> k == keys[0] by {
        forall k | k in keys[1..] && Name(k) == Name(keys[0]) ensures k == keys[0] {
          NameInjective(k, keys[0]);
        }
      }
      r
  }

  /**
   * Merging a record with an object literal made of its own fields changes
   * nothing, since `x || x` is `x`: the literal may list more fields than
   * the merge reads.
   */
  lemma MergeOwnFieldsIsIdentity(s: Style, literal: seq<Key>, keys: seq<Key>)
    requires forall k :: k in keys ==> k in literal
    ensures Merge(s, ObjectOf(s, literal), keys) == s
  {
    StyleExtensionality(Merge(s, ObjectOf(s, literal), keys), s);
  }
}

=== FILE: wrappers.dfy ===
/** Optional values and fallible results used throughout the model. */
module Wrappers {

  /** A value that may be absent (JavaScript `undefined`/`null` slots). */
  datatype Option<+T> = None | Some(value: T)

  /** The outcome of an operation that can fail with an error value. */
  datatype Result<+T, +E> = Success(value: T) | Failure(error: E)
}
